=== FILE: README.md ===
# Korean caption tokens for meme keyword counting

The Instagram half of the meme lifecycle analysis turns each post caption
into a list of *caption tokens*. The analysis step then turns those tokens
back into words and counts them.

- **Encoder (`compress_decompose`).** The caption is cleaned down to ASCII
  letters, digits, Hangul syllables, consonant jamo and whitespace, then
  split on whitespace. Within each word:
  - every maximal run of ASCII letters becomes a one-unit `ENG` token;
  - every standalone consonant jamo becomes a one-unit `CHO` token
    (cleaning has already removed every standalone vowel jamo);
  - the syllables of the word are decomposed into `CHO`/`JUNG`/`JONG`
    units, which go together, in order, into one *group* token emitted
    after the word's other tokens.
- **Decoder (`combine_units`).** It walks a token's units greedily. A `CHO`
  followed by a `JUNG`, plus a `JONG` if one comes next, is recomposed into
  a syllable through the jamo tables and the formula
  `0xAC00 + lead*588 + vowel*28 + trail`. Any other unit is copied out raw.
- **Aggregator (`extract_keywords`).** It decodes every token of every
  caption into a word, counts the words in first-seen order (Python's
  `Counter`), and returns `most_common()`: all rows, sorted by count with
  the largest first, ties in first-seen order.

The Dafny modules follow that structure:

| module | file | contents |
|---|---|---|
| `Wrappers` | wrappers.dfy | `Option`, the failure of a table lookup |
| `Hangul` | hangul.dfy | the three jamo tables, character classes, syllable index arithmetic, `list.index` |
| `Units` | units.dfy | the tagged unit (`ENG`/`CHO`/`JUNG`/`JONG`) and the token |
| `Seqs` | seqs.dfy | flattening a sequence of sequences |
| `Text` | text.dfy | Python whitespace and argument-less `str.split()` |
| `Encoder` | encoder.dfy | `clean_text`, `decompose_hangul`, `compress_decompose`: the source's loop as a method, a maximal-munch reference definition, and the proof that they agree |
| `Decoder` | decoder.dfy | `combine_units` as a method and as a recursive reference, and the per-token choice of `extract_keywords` |
| `Counter` | counter.dfy | `Counter` increments and `most_common()` as a stable insertion sort |
| `Keywords` | keywords.dfy | `extract_keywords` over a corpus of token lists |
| `RoundTrip` | roundtrip.dfy | what the decoder recovers from what the encoder produces |
| `Examples` | examples.dfy | worked instances: 밈, 짱, ㅋㅋㅋ, mixed English and Korean captions, digits inside a word |
| `FrequencyExamples` | examples.dfy | the tie order of `most_common()` on a three-row table |

The source copies the jamo tables into both files. Here they are defined
once, in `Hangul`, and both sides use them. The trail table is stored
without its leading empty entry: trail index `t` (1..27) is entry `t - 1`,
and index 0 means "no trail".

A failed `list.index` in `combine_units` raises `ValueError`. In the model
that failure is `None`, and `ExtractKeywords` returns `None` if any token
fails. The model proves that this never happens for tokens the encoder
produced.

## Model

| member | source | states |
|---|---|---|
| Hangul.SyllableIndices | instagram_meme_lifecycle_analysis/src/preprocessing/instagram.py:54-58 | For a precomposed syllable, the lead, vowel and trail indices are below 19, 21 and 28, and recombine to the syllable's code point. |
| Hangul.Compose | instagram_meme_lifecycle_analysis/src/analysis/keywords.py:50 | The code point built from in-range indices is a precomposed syllable, and decomposing it gives back the same indices. |
| Hangul.ComposeOfIndices | instagram_meme_lifecycle_analysis/src/analysis/keywords.py:50 | Recomposing the indices of any syllable gives back that syllable. |
| Hangul.IndicesUnique | instagram_meme_lifecycle_analysis/src/analysis/keywords.py:50 | Distinct index triples give distinct code points. |
| Hangul.IndexOf | instagram_meme_lifecycle_analysis/src/analysis/keywords.py:42-45 | `list.index` fails exactly when the jamo is absent. Otherwise it returns the first position holding it. |
| Hangul.TrailIndex | instagram_meme_lifecycle_analysis/src/analysis/keywords.py:45 | A trail jamo's index lies in 1..27, and the trail table holds that jamo at that index. The lookup fails exactly when the jamo is not a trail. |
| Hangul.TablesIncreasing | instagram_meme_lifecycle_analysis/src/preprocessing/instagram.py:41-47 | The tables have 19 lead, 21 vowel and 27 trail entries. The source trail table also has an empty entry at index 0; here trail index t reads entry t-1. Each table is strictly increasing, so no jamo appears twice in a table. |
| Hangul.IncreasingIndexOf | instagram_meme_lifecycle_analysis/src/analysis/keywords.py:42-45 | In a table without repeats, looking up the k-th entry gives k. |
| Hangul.LookupsInvert | instagram_meme_lifecycle_analysis/src/analysis/keywords.py:28-45 | The decoder's lookups invert the encoder's table reads: for every in-range index, looking up the entry at that index gives the index back. |
| Encoder.Kept | instagram_meme_lifecycle_analysis/src/preprocessing/instagram.py:50 | Definition: the complement of the class `[^A-Za-z0-9가-힣ㄱ-ㅎ\s]`, i.e. ASCII letters and digits, U+AC00..U+D7A3, the consonant jamo U+3131..U+314E and Python whitespace. Vowel jamo fall outside `ㄱ-ㅎ` and are not kept. |
| Encoder.Clean | instagram_meme_lifecycle_analysis/src/preprocessing/instagram.py:49-50 | Every character left after cleaning is an ASCII letter, a digit, a syllable, a consonant jamo or whitespace. The result is never longer than the input. |
| Encoder.CleanCounts | instagram_meme_lifecycle_analysis/src/preprocessing/instagram.py:49-50 | Every kept character keeps all of its occurrences and every other character loses all of them. |
| Encoder.CleanChars | instagram_meme_lifecycle_analysis/src/preprocessing/instagram.py:50 | A character occurs in the cleaned text if and only if it occurs in the input and is of a kept class. |
| Encoder.CleanAppend | instagram_meme_lifecycle_analysis/src/preprocessing/instagram.py:50 | Cleaning works character by character, so it distributes over concatenation. |
| Encoder.CleanKeepsKept | instagram_meme_lifecycle_analysis/src/preprocessing/instagram.py:50 | Text made only of kept characters is unchanged. |
| Encoder.CleanTwice | instagram_meme_lifecycle_analysis/src/preprocessing/instagram.py:50 | Cleaning is idempotent: cleaning a cleaned caption changes nothing. |
| Encoder.Decompose | instagram_meme_lifecycle_analysis/src/preprocessing/instagram.py:52-65 | A syllable gives lead and vowel jamo that the decoder's tables map back to the syllable's indices. It also gives a trail jamo exactly when the trail index is non-zero. A consonant jamo gives (itself, none, none), a vowel jamo gives (none, itself, none), and anything else gives nothing. |
| Encoder.PartUnits | instagram_meme_lifecycle_analysis/src/preprocessing/instagram.py:85-88 | The units are CHO, JUNG, JONG for the parts that are present, in that order, and nothing else. |
| Encoder.CharUnits | instagram_meme_lifecycle_analysis/src/preprocessing/instagram.py:84-88 | A character gives exactly one unit when it is a standalone jamo (the unit holds the jamo itself), two or three when it is a syllable, and none otherwise. |
| Encoder.CharUnitsOfSyllable | instagram_meme_lifecycle_analysis/src/preprocessing/instagram.py:54-60 | A syllable's units are CHO, JUNG, then JONG only when the trail index is non-zero. The decoder's lookups on those units give back exactly the syllable's indices. |
| Encoder.NonLetterPieces | instagram_meme_lifecycle_analysis/src/preprocessing/instagram.py:84-91 | A non-letter character adds its single unit as a token of its own when it is a jamo, and no single-unit token otherwise. |
| Encoder.NonLetterGroup | instagram_meme_lifecycle_analysis/src/preprocessing/instagram.py:84-93 | A non-letter character extends the group with its units when it is a syllable, and leaves the group unchanged otherwise. |
| Encoder.Pieces | instagram_meme_lifecycle_analysis/src/preprocessing/instagram.py:75-96 | Every token outside the group is a single unit: an ENG holding a non-empty letter run, a CHO holding a consonant jamo, or a JUNG holding a vowel jamo. |
| Encoder.PiecesAppend | instagram_meme_lifecycle_analysis/src/preprocessing/instagram.py:76-91 | Cutting a word anywhere that does not split a letter run splits its tokens at the same place. |
| Encoder.FlushRun | instagram_meme_lifecycle_analysis/src/preprocessing/instagram.py:80-82 | A buffered letter run that ends where a non-letter starts, or the word ends, is emitted as exactly one ENG token. |
| Encoder.GroupShape | instagram_meme_lifecycle_analysis/src/preprocessing/instagram.py:92-98 | A word has a group token if and only if it contains a syllable. The group always starts with a CHO unit. |
| Encoder.GroupAppend | instagram_meme_lifecycle_analysis/src/preprocessing/instagram.py:92-93 | The group of two concatenated pieces of a word is the first piece's group followed by the second's. |
| Encoder.ScanBuffer | instagram_meme_lifecycle_analysis/src/preprocessing/instagram.py:76-82 | After any prefix of a word, the buffer holds exactly the maximal run of letters ending that prefix. |
| Encoder.ScanGroup | instagram_meme_lifecycle_analysis/src/preprocessing/instagram.py:90-93 | After any prefix of a word, the group holds the units of that prefix's syllables, in order. |
| Encoder.ScanResult | instagram_meme_lifecycle_analysis/src/preprocessing/instagram.py:79-91 | After any prefix of a word, the tokens emitted are the reference tokens of the prefix without its buffered letter run. |
| Encoder.Feed | instagram_meme_lifecycle_analysis/src/preprocessing/instagram.py:75-91 | Definition: one pass of the inner loop body. A letter extends the buffer and skips the rest (the `continue`); any other character first flushes a non-empty buffer as an ENG token, then a one-unit result is emitted as its own token and a longer one is appended to the group. |
| Encoder.Scan | instagram_meme_lifecycle_analysis/src/preprocessing/instagram.py:74-91 | The loop state after the characters of a word, read left to right from the empty result, buffer and group. The pending buffer is never longer than the word. |
| Encoder.EncodeWord | instagram_meme_lifecycle_analysis/src/preprocessing/instagram.py:74-98 | Definition of the reference tokens of one word: its maximal-munch pieces (letter runs and single jamo, in order) followed by one group token of all its syllable units when it has any. `Encoder.ScanEncodes` and `Encoder.CompressWord` prove the source loop equals it. |
| Encoder.Encode | instagram_meme_lifecycle_analysis/src/preprocessing/instagram.py:67-100 | Definition of the reference tokens of a caption: those of each word of the cleaned, split text, in word order. `Encoder.CompressDecompose` proves the source function equals it. |
| Encoder.ScanEncodes | instagram_meme_lifecycle_analysis/src/preprocessing/instagram.py:75-98 | The source's character loop, followed by its final flush of the buffer and the group, gives the reference tokens of the word. |
| Encoder.CompressWord | instagram_meme_lifecycle_analysis/src/preprocessing/instagram.py:72-98 | The loop over one word returns the reference tokens: letter runs and jamo in order, then the group token if the word has syllables. |
| Encoder.CompressDecompose | instagram_meme_lifecycle_analysis/src/preprocessing/instagram.py:67-100 | The caption encoder returns, word by word, the reference tokens of the words of the cleaned caption. |
| Encoder.EncodeWordsAppend | instagram_meme_lifecycle_analysis/src/preprocessing/instagram.py:71 | Words are encoded independently: the tokens of two word lists are the tokens of each, one after the other. |
| Encoder.EncodeAtSpace | instagram_meme_lifecycle_analysis/src/preprocessing/instagram.py:67-100 | A caption cut at a whitespace character encodes to the tokens of the text before it followed by those of the text after it. |
| Encoder.PiecesEmpty | instagram_meme_lifecycle_analysis/src/preprocessing/instagram.py:76-91 | A word has no tokens outside its group exactly when it has no letter and no jamo. |
| Encoder.WordEmpty | instagram_meme_lifecycle_analysis/src/preprocessing/instagram.py:72-98 | A word gives no token exactly when it holds no letter, jamo or syllable, e.g. a word of digits. |
| Encoder.WordsEmpty | instagram_meme_lifecycle_analysis/src/preprocessing/instagram.py:71-98 | A list of words gives no token exactly when none of its characters is a letter, jamo or syllable. |
| Encoder.EncodeEmptyIff | instagram_meme_lifecycle_analysis/src/preprocessing/instagram.py:67-100 | A caption encodes to no token if and only if it has no ASCII letter, no consonant jamo and no syllable. Vowel jamo do not count, because cleaning removes them. |
| Encoder.NoVowelTokens | instagram_meme_lifecycle_analysis/src/preprocessing/instagram.py:49-64 | Every token of an encoded caption starts with an ENG or a CHO unit. Cleaning has removed all vowel jamo, so the vowel branch of `decompose_hangul` is never taken. |
| Text.IsSpace | instagram_meme_lifecycle_analysis/src/preprocessing/instagram.py:50 | Definition: the characters Python treats as whitespace, both for `\s` in a `str` pattern and for `str.split()` at line 71: U+0009..U+000D, U+001C..U+0020, U+0085, U+00A0, U+1680, U+2000..U+200A, U+2028, U+2029, U+202F, U+205F and U+3000. |
| Text.Split | instagram_meme_lifecycle_analysis/src/preprocessing/instagram.py:71 | Every word `str.split()` yields is non-empty and has no whitespace. |
| Text.SplitKeepsNonSpace | instagram_meme_lifecycle_analysis/src/preprocessing/instagram.py:71 | The words, put end to end, are exactly the text with its whitespace removed. |
| Text.SplitAtSpace | instagram_meme_lifecycle_analysis/src/preprocessing/instagram.py:71 | Whitespace separates: the words of a text cut at a whitespace character are the words before it followed by the words after it. |
| Text.SplitOfWord | instagram_meme_lifecycle_analysis/src/preprocessing/instagram.py:71 | A non-empty text without whitespace is a single word. |
| Decoder.SyllableWidth | instagram_meme_lifecycle_analysis/src/analysis/keywords.py:44-49 | A syllable takes three units when a JONG follows the JUNG and two otherwise. It never runs past the end. |
| Decoder.SyllableAt | instagram_meme_lifecycle_analysis/src/analysis/keywords.py:42-50 | A CHO-JUNG pair, with an optional JONG, recomposes to a syllable exactly when every jamo is in its table. Otherwise the lookup fails. The syllable is the one whose lead and vowel indices read the CHO and JUNG jamo from the tables, and whose trail index is 0 without a JONG or reads the JONG jamo (one past its table position). Only one syllable has those indices. |
| Decoder.Combine | instagram_meme_lifecycle_analysis/src/analysis/keywords.py:37-55 | Definition of the recursive decoder: a CHO followed by a JUNG (and by a JONG if one comes next) is looked up and composed into one syllable; any other unit's value is copied out. `Decoder.CombineUnits` proves the source loop equals it. |
| Decoder.CombineFailsOnlyAtSyllable | instagram_meme_lifecycle_analysis/src/analysis/keywords.py:41-46 | Decoding can fail only at a table lookup of a syllable's jamo, so a failure needs a CHO unit directly followed by a JUNG unit somewhere in the token. |
| Units.RawValue | instagram_meme_lifecycle_analysis/src/analysis/keywords.py:51-53 | Definition: the text `units[i].values()` appends for a unit outside a syllable, which is the unit's one value (the letter run, or the single jamo). |
| Decoder.CombineUnits | instagram_meme_lifecycle_analysis/src/analysis/keywords.py:37-55 | The source's greedy loop returns what the recursive reference decoder returns, failure included. |
| Decoder.KeywordOf | instagram_meme_lifecycle_analysis/src/analysis/keywords.py:61-64 | The shortcut for a lone ENG unit never changes the word: it agrees with `combine_units` on every token. |
| Decoder.NoSyllableDecodesRaw | instagram_meme_lifecycle_analysis/src/analysis/keywords.py:51-54 | Units with no CHO directly followed by a JUNG decode to their raw characters, concatenated. Nothing is rejected, not even two CHO units in a row. |
| Decoder.InTablesDecodes | instagram_meme_lifecycle_analysis/src/analysis/keywords.py:42-45 | When every jamo is in the table for its role, decoding never fails. |
| Counter.Bump | instagram_meme_lifecycle_analysis/src/analysis/keywords.py:65 | `counter[word] += 1` keeps one row per word, has a row for the word afterwards, and raises the total by one. |
| Counter.Tally | instagram_meme_lifecycle_analysis/src/analysis/keywords.py:58-65 | After counting, every word has at most one row and the counts add up to the number of words counted. |
| Counter.BumpIsCounter | instagram_meme_lifecycle_analysis/src/analysis/keywords.py:65 | One increment keeps the counter exact: one row per distinct word, each holding its number of occurrences, rows in first-seen order. |
| Counter.TallyIsCounter | instagram_meme_lifecycle_analysis/src/analysis/keywords.py:58-65 | The counter after a corpus has exactly one row for every distinct word seen. Each row holds that word's number of occurrences, and rows are in first-seen order. |
| Counter.InsertByCount | instagram_meme_lifecycle_analysis/src/analysis/keywords.py:66 | One insertion step adds exactly the inserted row to the rows. |
| Counter.MostCommon | instagram_meme_lifecycle_analysis/src/analysis/keywords.py:66 | `most_common()` returns a permutation of the counter's rows with counts never increasing. |
| Counter.MostCommonStable | instagram_meme_lifecycle_analysis/src/analysis/keywords.py:66 | Rows with equal counts stay in first-seen order: the sort is stable. |
| Counter.MostCommonKeepsDistinct | instagram_meme_lifecycle_analysis/src/analysis/keywords.py:66 | Sorting keeps one row per word. |
| Counter.MostCommonKeepsSum | instagram_meme_lifecycle_analysis/src/analysis/keywords.py:66 | Sorting keeps the total count. |
| Counter.MostCommonKeepsCounts | instagram_meme_lifecycle_analysis/src/analysis/keywords.py:66 | After sorting, every row still holds a corpus word and its number of occurrences. |
| Counter.MostCommonKeepsCover | instagram_meme_lifecycle_analysis/src/analysis/keywords.py:66 | After sorting, every corpus word still has a row. |
| Counter.MostCommonOfTally | instagram_meme_lifecycle_analysis/src/analysis/keywords.py:57-66 | The keyword table is the full frequency table of the words: one row per distinct word with its occurrence count, sorted by count with ties in first-seen order. The counts add up to the number of words. |
| Keywords.TokenWords | instagram_meme_lifecycle_analysis/src/analysis/keywords.py:59-64 | Decoding all tokens succeeds if and only if every token decodes. It then gives one word per token, in order. |
| Keywords.ExtractKeywords | instagram_meme_lifecycle_analysis/src/analysis/keywords.py:57-66 | The keyword table exists if and only if every token of the corpus decodes. It is then the frequency table of the decoded words, and its counts add up to the number of tokens. |
| RoundTrip.SyllableUnitsDecode | instagram_meme_lifecycle_analysis/src/analysis/keywords.py:41-50 | The units of one syllable, followed by nothing or by another CHO, decode back to that syllable. |
| RoundTrip.SyllableReencodes | instagram_meme_lifecycle_analysis/src/analysis/keywords.py:41-50 | The other direction: a CHO-JUNG pair, with an optional JONG, whose jamo are all in their tables decodes to a syllable, and that syllable encodes back to exactly the units it consumed. |
| RoundTrip.GroupRoundTrip | instagram_meme_lifecycle_analysis/src/analysis/keywords.py:37-55 | A word's group token decodes to exactly the word's syllables, in order. |
| RoundTrip.PieceDecodes | instagram_meme_lifecycle_analysis/src/analysis/keywords.py:61-64 | A single-unit token decodes to its raw characters. |
| RoundTrip.PiecesRecoverLettersAndJamo | instagram_meme_lifecycle_analysis/src/analysis/keywords.py:57-64 | The tokens of a word outside its group decode to the word's letters and jamo, in order. |
| RoundTrip.WordRoundTrip | instagram_meme_lifecycle_analysis/src/preprocessing/instagram.py:72-98 | A word's tokens decode to its letters and jamo followed by its syllables. |
| RoundTrip.WordsRoundTrip | instagram_meme_lifecycle_analysis/src/preprocessing/instagram.py:71-100 | The tokens of a list of words decode to each word's letters and jamo followed by its syllables, word after word. |
| RoundTrip.CaptionRoundTrip | instagram_meme_lifecycle_analysis/src/preprocessing/instagram.py:67-100 | Every encoded caption decodes without failure: to the words of the cleaned caption, each reordered as letters and jamo first, then syllables. |
| RoundTrip.SyllableCaptionRoundTrip | instagram_meme_lifecycle_analysis/src/preprocessing/instagram.py:67-100 | A caption of syllables and whitespace decodes back to itself with the whitespace removed. |
| RoundTrip.DecodedTextIsWords | instagram_meme_lifecycle_analysis/src/analysis/keywords.py:59-64 | Decoding a token list as one text succeeds exactly when every token decodes as a keyword. The text is then the keywords end to end. |
| RoundTrip.EncodeCorpus | instagram_meme_lifecycle_analysis/src/preprocessing/instagram.py:102 | One token list per caption, in order, and row i is exactly the encoding of caption i. |
| RoundTrip.CorpusDecodes | instagram_meme_lifecycle_analysis/src/analysis/keywords.py:59-64 | The tokens of every encoded caption decode without a lookup failure. |
| RoundTrip.EncodedCorpusExtracts | instagram_meme_lifecycle_analysis/src/analysis/keywords.py:57-66 | Keyword extraction over encoded captions always succeeds, and its counts add up to the number of tokens. |
| Examples.SyllableWithTrail | instagram_meme_lifecycle_analysis/src/preprocessing/instagram.py:54-60 | A syllable with a trail gives three units: the table entries at its lead, vowel and trail indices. |
| Examples.MimUnits | instagram_meme_lifecycle_analysis/src/preprocessing/instagram.py:54-60 | 밈 gives CHO ㅁ, JUNG ㅣ, JONG ㅁ. |
| Examples.JjangUnits | instagram_meme_lifecycle_analysis/src/preprocessing/instagram.py:54-60 | 짱 gives CHO ㅉ, JUNG ㅏ, JONG ㅇ. |
| Examples.MimRoundTrip | instagram_meme_lifecycle_analysis/src/preprocessing/instagram.py:67-100 | The caption 밈 decodes back to 밈. |
| Examples.TwoLeadsDecodeRaw | instagram_meme_lifecycle_analysis/src/analysis/keywords.py:51-54 | Two CHO units in a row, ㄱ then ㄴ, decode to "ㄱㄴ" rather than an error. |
| Examples.LaughterEncodes | instagram_meme_lifecycle_analysis/src/preprocessing/instagram.py:84-91 | A consonant jamo repeated three times, as in ㅋㅋㅋ, gives three one-unit CHO tokens and no group. |
| Examples.KkkEncodes | instagram_meme_lifecycle_analysis/src/preprocessing/instagram.py:84-91 | The caption ㅋㅋㅋ gives the three tokens [CHO ㅋ], [CHO ㅋ], [CHO ㅋ]. |
| Examples.MixedEncodes | instagram_meme_lifecycle_analysis/src/preprocessing/instagram.py:71-98 | An English word, an English word and a syllable, separated by spaces (as in "chill guy 짱"), give an ENG token, an ENG token and the syllable's group token, in that order. |
| Examples.DigitSplitsLetterRun | instagram_meme_lifecycle_analysis/src/preprocessing/instagram.py:75-82 | A digit between two letter runs, as in "abc1def", gives no unit of its own but ends the first run: the word gives the two ENG tokens "abc" and "def". |
| FrequencyExamples.TieOrder | instagram_meme_lifecycle_analysis/src/analysis/keywords.py:66 | Three rows in first-seen order, where the first and third have the same count and the second a smaller one, sort to first, third, second. For example 짱 3, 굿 1, 밈 3 sorts to 짱, 밈, 굿. |

## Left out

- Everything that runs at import time in both scripts: reading the meme name from the user, loading the JSON and CSV files, pandas date handling, dropping missing likes, the derived date columns, and writing the CSV results. These are file and user I/O around the core.
- Reading the tokens back with `eval` from the CSV written by the encoder. The model passes the token lists directly; that the text survives `repr`/`eval` is assumed.
- `str(text)` on non-string captions (for example a missing caption read as a float). Captions are strings here.
- A unit `{"JONG": ""}` can only come from a hand-edited CSV, and `combine_units` would look it up as trail index 0. It is not representable: a JONG unit holds one jamo.
- The values of CHO, JUNG and JONG units are single characters. A hand-edited unit holding a longer string cannot be represented.
- A unit is one dictionary with exactly one of the keys ENG, CHO, JUNG or JONG. A hand-edited dictionary with several keys, or with another key, cannot be represented. `combine_units` would copy all of its values out raw (keywords.py:52-53), or test only the key it looks for.
- The decoder has no corruption check. Two CHO units in a row, or a JUNG with no CHO before it, are copied out raw (`Decoder.NoSyllableDecodesRaw`, `Examples.TwoLeadsDecodeRaw`). The only failure is a table lookup that raises. The model follows the code, which validates nothing beyond the lookups.
- Digits are kept by `clean_text` but produce no unit. They still end an English letter run, so "abc1def" gives the two tokens "abc" and "def" (`Examples.DigitSplitsLetterRun`). The model follows the code.
- Vowel jamo (U+314F..U+3163) are removed by `clean_text`, whose class `ㄱ-ㅎ` covers only the consonants U+3131..U+314E. So the vowel branch of `decompose_hangul` is modelled but never reached from a caption (`Encoder.NoVowelTokens`).
- The per-row `df.apply` and the dataframe around `extract_keywords` are modelled as sequences of captions and of token lists.
- `Counter.most_common()` is modelled by its documented result, a stable sort by count with the largest first, not by CPython's heap or sort internals.
- The rest of the repository (the Twitter pipeline, scrapers, lifecycle statistics and charts) is not part of this model.

=== FILE: counter.dfy ===
/** Python's `collections.Counter` as `extract_keywords` uses it: counts kept
    in first-seen (insertion) order, then `most_common()`, a stable sort by
    count, largest first. */
module Counter {

  /** A (word, count) row of the frequency table. */
  type Entry = (string, nat)

  predicate DistinctKeys(t: seq<Entry>) {
    forall i, j :: 0 <= i < j < |t| ==> t[i].0 != t[j].0
  }

  predicate HasKey(t: seq<Entry>, w: string) {
    exists i :: 0 <= i < |t| && t[i].0 == w
  }

  /** Counts never increase along the table. */
  predicate NonIncreasing(t: seq<Entry>) {
    forall i, j :: 0 <= i < j < |t| ==> t[i].1 >= t[j].1
  }

  function SumCounts(t: seq<Entry>): nat {
    if |t| == 0 then 0 else t[0].1 + SumCounts(t[1..])
  }

  /** Position of the first occurrence of `w` in `words`, or `|words|` if none. */
  function FirstIndex(words: seq<string>, w: string): (k: nat)
    ensures k <= |words|
    ensures k < |words| <==> w in words
    ensures k < |words| ==> words[k] == w
    ensures forall i :: 0 <= i < k ==> words[i] != w
  {
    if |words| == 0 then 0
    else if words[0] == w then 0
    else 1 + FirstIndex(words[1..], w)
  }

  /** Position of the row of `w`, or `|t|` if it has none. */
  function KeyIndex(t: seq<Entry>, w: string): (k: nat)
    ensures k <= |t|
    ensures k < |t| <==> HasKey(t, w)
    ensures k < |t| ==> t[k].0 == w
    ensures forall i :: 0 <= i < k ==> t[i].0 != w
  {
    if |t| == 0 then 0
    else if t[0].0 == w then 0
    else
      var k := KeyIndex(t[1..], w);
      assert forall i :: 1 <= i < |t| ==> t[i] == t[1..][i - 1];
      1 + k
  }

  // Counting

  /** `counter[w] += 1`: the row of `w` goes up by one, or a new row (w, 1)
      is added at the end. */
  function Bump(t: seq<Entry>, w: string): (r: seq<Entry>)
    requires DistinctKeys(t)
    ensures DistinctKeys(r)
    ensures HasKey(r, w)
    ensures SumCounts(r) == SumCounts(t) + 1
  {
    var k := KeyIndex(t, w);
    if k < |t| then
      SumUpdate(t, k, (w, t[k].1 + 1));
      assert t[k := (w, t[k].1 + 1)][k].0 == w;
      t[k := (w, t[k].1 + 1)]
    else
      SumAppend(t, (w, 1));
      assert (t + [(w, 1)])[|t|].0 == w;
      t + [(w, 1)]
  }

  /** The counter after counting `words` from left to right. Its counts add
      up to the number of words. */
  function Tally(words: seq<string>): (t: seq<Entry>)
    ensures DistinctKeys(t)
    ensures SumCounts(t) == |words|
  {
    if |words| == 0 then [] else Bump(Tally(words[..|words| - 1]), words[|words| - 1])
  }

  /** The counter for `words` in every respect Python promises: one row per
      distinct word, each with its number of occurrences, rows in the order
      the words were first seen. */
  ghost predicate IsTally(t: seq<Entry>, words: seq<string>) {
    && DistinctKeys(t)
    && CountsOccurrences(t, words)
    && CoversWords(t, words)
    && FirstSeenOrder(t, words)
  }

  /** Every row is a word of the corpus with its number of occurrences. */
  ghost predicate CountsOccurrences(t: seq<Entry>, words: seq<string>) {
    forall i :: 0 <= i < |t| ==> t[i].0 in words && t[i].1 == multiset(words)[t[i].0]
  }

  /** Every word of the corpus has a row. */
  ghost predicate CoversWords(t: seq<Entry>, words: seq<string>) {
    forall k :: 0 <= k < |words| ==> HasKey(t, words[k])
  }

  ghost predicate FirstSeenOrder(t: seq<Entry>, words: seq<string>) {
    forall i, j :: 0 <= i < j < |t| ==> FirstIndex(words, t[i].0) < FirstIndex(words, t[j].0)
  }

  // Sorting

  /** How many leading rows have a count at least that of `x`. */
  function InsertPosition(x: Entry, s: seq<Entry>): (k: nat)
    ensures k <= |s|
    ensures forall i :: 0 <= i < k ==> s[i].1 >= x.1
    ensures k == |s| || s[k].1 < x.1
  {
    if |s| == 0 || s[0].1 < x.1 then 0 else 1 + InsertPosition(x, s[1..])
  }

  /** One step of a stable insertion sort: `x` goes after every row whose
      count is at least its own. */
  function InsertByCount(x: Entry, s: seq<Entry>): (r: seq<Entry>)
    ensures |r| == |s| + 1
    ensures multiset(r) == multiset(s) + multiset{x}
  {
    var k := InsertPosition(x, s);
    assert s == s[..k] + s[k..];
    s[..k] + [x] + s[k..]
  }

  /** `most_common()`: the rows sorted by count, largest first; a permutation
      of the counter's rows. */
  function MostCommon(t: seq<Entry>): (r: seq<Entry>)
    ensures multiset(r) == multiset(t)
    ensures NonIncreasing(r)
  {
    if |t| == 0 then []
    else
      assert t == t[..|t| - 1] + [t[|t| - 1]];
      var s := MostCommon(t[..|t| - 1]);
      InsertKeepsOrder(t[|t| - 1], s);
      InsertByCount(t[|t| - 1], s)
  }

  /** Equal counts in `r` appear in first-seen order. */
  ghost predicate TiesFirstSeen(r: seq<Entry>, words: seq<string>) {
    forall i, j :: 0 <= i < j < |r| && r[i].1 == r[j].1 ==>
      FirstIndex(words, r[i].0) < FirstIndex(words, r[j].0)
  }

  // Lemmas

  lemma {:induction false} SumAppend(t: seq<Entry>, x: Entry)
    ensures SumCounts(t + [x]) == SumCounts(t) + x.1
  {
    if |t| > 0 {
      assert (t + [x])[1..] == t[1..] + [x];
      SumAppend(t[1..], x);
    }
  }

  lemma {:induction false} SumUpdate(t: seq<Entry>, k: nat, x: Entry)
    requires k < |t|
    ensures SumCounts(t[k := x]) == SumCounts(t) - t[k].1 + x.1
  {
    if k > 0 {
      assert t[k := x][1..] == t[1..][k - 1 := x];
      SumUpdate(t[1..], k - 1, x);
    }
  }

  /** Where each row of `s`, and `x`, sits after the insertion. */
  lemma InsertIndex(x: Entry, s: seq<Entry>)
    ensures var k := InsertPosition(x, s);
      forall i :: 0 <= i < |s| + 1 ==>
        InsertByCount(x, s)[i] == if i < k then s[i] else if i == k then x else s[i - 1]
  {
    var k := InsertPosition(x, s);
    var r := InsertByCount(x, s);
    assert r == s[..k] + ([x] + s[k..]);
    forall i | 0 <= i < |s| + 1
      ensures r[i] == if i < k then s[i] else if i == k then x else s[i - 1]
    {
      if i > k {
        assert r[i] == s[k..][i - k - 1];
      }
    }
  }

  lemma InsertKeepsOrder(x: Entry, s: seq<Entry>)
    requires NonIncreasing(s)
    ensures NonIncreasing(InsertByCount(x, s))
  {
    var k := InsertPosition(x, s);
    var r := InsertByCount(x, s);
    InsertIndex(x, s);
    forall i, j | 0 <= i < j < |r| ensures r[i].1 >= r[j].1 {
      if j > k && i >= k {
        assert s[j - 1].1 <= s[k].1;
      }
    }
  }

  lemma FirstIndexAppend(words: seq<string>, w: string, x: string)
    ensures x in words ==> FirstIndex(words + [w], x) == FirstIndex(words, x)
    ensures x !in words && x == w ==> FirstIndex(words + [w], x) == |words|
  {
    var ws := words + [w];
    assert forall i :: 0 <= i < |words| ==> ws[i] == words[i];
    assert ws[|words|] == w;
  }

  /** Counting one more word keeps the counter exact. */
  lemma BumpIsCounter(t: seq<Entry>, words: seq<string>, w: string)
    requires IsTally(t, words)
    ensures IsTally(Bump(t, w), words + [w])
  {
    BumpCounts(t, words, w);
    BumpCovers(t, words, w);
    BumpOrder(t, words, w);
  }

  lemma BumpCounts(t: seq<Entry>, words: seq<string>, w: string)
    requires DistinctKeys(t) && CountsOccurrences(t, words) && CoversWords(t, words)
    ensures CountsOccurrences(Bump(t, w), words + [w])
  {
    var ws := words + [w];
    var r := Bump(t, w);
    var k := KeyIndex(t, w);
    assert multiset(ws) == multiset(words) + multiset{w};
    if k < |t| {
      assert r == t[k := (w, t[k].1 + 1)];
      forall i | 0 <= i < |r| ensures r[i].0 in ws && r[i].1 == multiset(ws)[r[i].0] {
        if i != k {
          assert r[i] == t[i] && t[i].0 != w;
        }
      }
    } else {
      assert w !in words;
      assert r == t + [(w, 1)];
      forall i | 0 <= i < |r| ensures r[i].0 in ws && r[i].1 == multiset(ws)[r[i].0] {
        if i < |t| {
          assert r[i] == t[i] && t[i].0 != w;
        }
      }
    }
  }

  lemma BumpCovers(t: seq<Entry>, words: seq<string>, w: string)
    requires DistinctKeys(t) && CoversWords(t, words)
    ensures CoversWords(Bump(t, w), words + [w])
  {
    var ws := words + [w];
    var r := Bump(t, w);
    var k := KeyIndex(t, w);
    assert |r| >= |t|;
    assert forall i :: 0 <= i < |t| ==> r[i].0 == t[i].0;
    forall j | 0 <= j < |ws| ensures HasKey(r, ws[j]) {
      if j < |words| {
        assert ws[j] == words[j] && HasKey(t, words[j]);
        var i :| 0 <= i < |t| && t[i].0 == words[j];
        assert r[i].0 == t[i].0;
      }
    }
  }

  lemma BumpOrder(t: seq<Entry>, words: seq<string>, w: string)
    requires DistinctKeys(t) && CountsOccurrences(t, words) && CoversWords(t, words)
    requires FirstSeenOrder(t, words)
    ensures FirstSeenOrder(Bump(t, w), words + [w])
  {
    forall i | 0 <= i < |t| ensures FirstIndex(words + [w], t[i].0) == FirstIndex(words, t[i].0) {
      FirstIndexAppend(words, w, t[i].0);
    }
    if KeyIndex(t, w) < |t| {
      BumpOrderHit(t, words, w);
    } else {
      assert w !in words;
      FirstIndexAppend(words, w, w);
      BumpOrderNew(t, words, w);
    }
  }

  /** A word already counted: the rows keep their keys and their order. */
  lemma BumpOrderHit(t: seq<Entry>, words: seq<string>, w: string)
    requires DistinctKeys(t) && FirstSeenOrder(t, words) && KeyIndex(t, w) < |t|
    requires forall i :: 0 <= i < |t| ==> FirstIndex(words + [w], t[i].0) == FirstIndex(words, t[i].0)
    ensures FirstSeenOrder(Bump(t, w), words + [w])
  {
    var r := Bump(t, w);
    assert forall i :: 0 <= i < |t| ==> r[i].0 == t[i].0;
  }

  /** A new word: its row goes last, and it is seen after every counted word. */
  lemma BumpOrderNew(t: seq<Entry>, words: seq<string>, w: string)
    requires DistinctKeys(t) && FirstSeenOrder(t, words) && KeyIndex(t, w) == |t|
    requires forall i :: 0 <= i < |t| ==> FirstIndex(words, t[i].0) < |words|
    requires forall i :: 0 <= i < |t| ==> FirstIndex(words + [w], t[i].0) == FirstIndex(words, t[i].0)
    requires FirstIndex(words + [w], w) == |words|
    ensures FirstSeenOrder(Bump(t, w), words + [w])
  {
    var ws := words + [w];
    var r := Bump(t, w);
    assert r == t + [(w, 1)];
    forall i, j | 0 <= i < j < |r| ensures FirstIndex(ws, r[i].0) < FirstIndex(ws, r[j].0) {
      assert r[i] == t[i];
      if j < |t| {
        assert r[j] == t[j];
      }
    }
  }

  /** The counter built by Tally is exact: unique rows, true occurrence
      counts, every word present, rows in first-seen order. */
  lemma {:induction false} TallyIsCounter(words: seq<string>)
    ensures IsTally(Tally(words), words)
    decreases |words|
  {
    if |words| > 0 {
      var prev := words[..|words| - 1];
      assert words == prev + [words[|words| - 1]];
      TallyIsCounter(prev);
      BumpIsCounter(Tally(prev), prev, words[|words| - 1]);
    }
  }

  lemma InsertKeepsDistinct(x: Entry, s: seq<Entry>)
    requires DistinctKeys(s)
    requires forall i :: 0 <= i < |s| ==> s[i].0 != x.0
    ensures DistinctKeys(InsertByCount(x, s))
  {
    var k := InsertPosition(x, s);
    var r := InsertByCount(x, s);
    InsertIndex(x, s);
    forall i, j | 0 <= i < j < |r| ensures r[i].0 != r[j].0 {
      if j < k {
        assert r[i] == s[i] && r[j] == s[j];
      } else if j == k {
        assert r[i] == s[i];
      } else if i < k {
        assert r[i] == s[i] && r[j] == s[j - 1];
      } else if i == k {
        assert r[j] == s[j - 1];
      } else {
        assert r[i] == s[i - 1] && r[j] == s[j - 1];
      }
    }
  }

  /** Sorting never merges or splits rows: a counter with unique words stays so. */
  lemma {:induction false} MostCommonKeepsDistinct(t: seq<Entry>)
    requires DistinctKeys(t)
    ensures DistinctKeys(MostCommon(t))
    decreases |t|
  {
    if |t| > 0 {
      var prev := t[..|t| - 1];
      var x := t[|t| - 1];
      var s := MostCommon(prev);
      MostCommonKeepsDistinct(prev);
      forall i | 0 <= i < |s| ensures s[i].0 != x.0 {
        assert s[i] in multiset(prev);
        var j :| 0 <= j < |prev| && prev[j] == s[i];
      }
      InsertKeepsDistinct(x, s);
    }
  }

  lemma InsertStable(x: Entry, s: seq<Entry>, words: seq<string>)
    requires NonIncreasing(s) && TiesFirstSeen(s, words)
    requires forall i :: 0 <= i < |s| ==> FirstIndex(words, s[i].0) < FirstIndex(words, x.0)
    ensures TiesFirstSeen(InsertByCount(x, s), words)
  {
    var k := InsertPosition(x, s);
    var r := InsertByCount(x, s);
    InsertIndex(x, s);
    forall i, j | 0 <= i < j < |r| && r[i].1 == r[j].1
      ensures FirstIndex(words, r[i].0) < FirstIndex(words, r[j].0)
    {
      if i == k {
        assert x.1 > s[k].1;
      }
    }
  }

  /** `most_common()` is stable: rows with equal counts keep the order of
      the counter, which is the order the words were first seen. */
  lemma {:induction false} MostCommonStable(t: seq<Entry>, words: seq<string>)
    requires FirstSeenOrder(t, words)
    ensures TiesFirstSeen(MostCommon(t), words)
    decreases |t|
  {
    if |t| > 0 {
      var prev := t[..|t| - 1];
      var x := t[|t| - 1];
      var s := MostCommon(prev);
      MostCommonStable(prev, words);
      forall i | 0 <= i < |s| ensures FirstIndex(words, s[i].0) < FirstIndex(words, x.0) {
        assert s[i] in multiset(prev);
        var j :| 0 <= j < |prev| && prev[j] == s[i];
        assert t[j] == s[i];
      }
      InsertStable(x, s, words);
    }
  }

  lemma {:induction false} SumConcat(a: seq<Entry>, b: seq<Entry>)
    ensures SumCounts(a + b) == SumCounts(a) + SumCounts(b)
  {
    if |a| == 0 {
      assert a + b == b;
    } else {
      assert (a + b)[1..] == a[1..] + b;
      SumConcat(a[1..], b);
    }
  }

  lemma InsertSum(x: Entry, s: seq<Entry>)
    ensures SumCounts(InsertByCount(x, s)) == SumCounts(s) + x.1
  {
    var k := InsertPosition(x, s);
    assert s == s[..k] + s[k..];
    assert InsertByCount(x, s) == s[..k] + ([x] + s[k..]);
    SumConcat(s[..k], [x] + s[k..]);
    SumConcat([x], s[k..]);
    SumConcat(s[..k], s[k..]);
  }

  /** Sorting keeps the total of the counts. */
  lemma {:induction false} MostCommonKeepsSum(t: seq<Entry>)
    ensures SumCounts(MostCommon(t)) == SumCounts(t)
    decreases |t|
  {
    if |t| > 0 {
      var prev := t[..|t| - 1];
      var x := t[|t| - 1];
      MostCommonKeepsSum(prev);
      InsertSum(x, MostCommon(prev));
      assert t == prev + [x];
      SumAppend(prev, x);
    }
  }

  /** The result `extract_keywords` promises for a list of words: one row per
      distinct word with its number of occurrences, largest count first,
      equal counts in first-seen order. */
  ghost predicate IsFrequencyTable(r: seq<Entry>, words: seq<string>) {
    && DistinctKeys(r)
    && CountsOccurrences(r, words)
    && CoversWords(r, words)
    && NonIncreasing(r)
    && TiesFirstSeen(r, words)
  }

  /** Sorting moves rows without changing them, so exact counts stay exact. */
  lemma MostCommonKeepsCounts(t: seq<Entry>, words: seq<string>)
    requires CountsOccurrences(t, words)
    ensures CountsOccurrences(MostCommon(t), words)
  {
    var r := MostCommon(t);
    forall i | 0 <= i < |r| ensures r[i].0 in words && r[i].1 == multiset(words)[r[i].0] {
      assert r[i] in multiset(t);
      var j :| 0 <= j < |t| && t[j] == r[i];
    }
  }

  /** Sorting drops no row, so every word keeps its row. */
  lemma MostCommonKeepsCover(t: seq<Entry>, words: seq<string>)
    requires CoversWords(t, words)
    ensures CoversWords(MostCommon(t), words)
  {
    var r := MostCommon(t);
    forall k | 0 <= k < |words| ensures HasKey(r, words[k]) {
      assert HasKey(t, words[k]);
      var j :| 0 <= j < |t| && t[j].0 == words[k];
      assert t[j] in multiset(r);
      var i :| 0 <= i < |r| && r[i] == t[j];
    }
  }

  /** `Counter(words).most_common()` is the frequency table of `words`, and
      its counts add up to the number of words. */
  lemma MostCommonOfTally(words: seq<string>)
    ensures IsFrequencyTable(MostCommon(Tally(words)), words)
    ensures SumCounts(MostCommon(Tally(words))) == |words|
  {
    var t := Tally(words);
    TallyIsCounter(words);
    MostCommonKeepsDistinct(t);
    MostCommonStable(t, words);
    MostCommonKeepsSum(t);
    MostCommonKeepsCounts(t, words);
    MostCommonKeepsCover(t, words);
  }
}

=== FILE: decoder.dfy ===
/** The keyword decoder (`combine_units`, and the per-token choice in
    `extract_keywords`): greedy recombination of CHO, JUNG and optional JONG
    units into syllables. A unit that cannot start a syllable is copied out
    as its raw characters; the only failure is a jamo missing from its table,
    where the source's `list.index` raises. */
module Decoder {
  import opened Wrappers
  import opened Hangul
  import opened Units
  import opened Seqs

  /** A syllable starts at the front: a CHO unit followed by a JUNG unit. */
  predicate StartsSyllable(units: seq<Unit>) {
    |units| >= 2 && units[0].CHO? && units[1].JUNG?
  }

  /** How many units the syllable at the front takes: three when a JONG follows
      the JUNG, two otherwise. */
  function SyllableWidth(units: seq<Unit>): (n: nat)
    requires StartsSyllable(units)
    ensures n == 2 || n == 3
    ensures n <= |units|
  {
    if |units| >= 3 && units[2].JONG? then 3 else 2
  }

  /** The syllable spelled by the units at the front, or None when one of its
      jamo is not in its table. The syllable is the one whose lead, vowel and
      trail indices read those jamo back from the tables; only one does. */
  function SyllableAt(units: seq<Unit>): (r: Option<char>)
    requires StartsSyllable(units)
    ensures r.Some? ==> IsSyllable(r.value)
    ensures r.Some? ==>
      var (l, v, t) := SyllableIndices(r.value);
      && LeadTable[l] == units[0].lead && VowelTable[v] == units[1].vowel
      && (SyllableWidth(units) == 2 ==> t == 0)
      && (SyllableWidth(units) == 3 ==> 1 <= t && TrailTable[t - 1] == units[2].trail)
    ensures r.Some? <==>
      && units[0].lead in LeadTable && units[1].vowel in VowelTable
      && (SyllableWidth(units) == 3 ==> units[2].trail in TrailTable)
  {
    var lead :- LeadIndex(units[0].lead);
    var vowel :- VowelIndex(units[1].vowel);
    var trail :- if SyllableWidth(units) == 3 then TrailIndex(units[2].trail) else Some(0);
    Some(Compose(lead, vowel, trail))
  }

  /** `combine_units`. */
  function Combine(units: seq<Unit>): Option<string>
    decreases |units|
  {
    if |units| == 0 then Some("")
    else if StartsSyllable(units) then
      var syllable :- SyllableAt(units);
      var rest :- Combine(units[SyllableWidth(units)..]);
      Some([syllable] + rest)
    else
      var rest :- Combine(units[1..]);
      Some(RawValue(units[0]) + rest)
  }

  /** `combine_units` fails only at a lookup of a syllable's jamo, so only
      where a CHO unit is directly followed by a JUNG unit. */
  lemma {:induction false} CombineFailsOnlyAtSyllable(units: seq<Unit>)
    ensures Combine(units).None? ==>
      exists i :: 0 <= i < |units| - 1 && units[i].CHO? && units[i + 1].JUNG?
    decreases |units|
  {
    if |units| > 0 && !StartsSyllable(units) {
      CombineFailsOnlyAtSyllable(units[1..]);
      if Combine(units).None? {
        var i :| 0 <= i < |units[1..]| - 1 && units[1..][i].CHO? && units[1..][i + 1].JUNG?;
        assert units[i + 1].CHO? && units[i + 2].JUNG?;
      }
    }
  }

  /** Puts `prefix` in front of a decoded string, keeping a failure a failure. */
  function Prepend(prefix: string, r: Option<string>): Option<string> {
    match r
    case None => None
    case Some(s) => Some(prefix + s)
  }

  /** The loop of `combine_units`: `i` moves forward by 3, 2 or 1 units per
      round and never past the end, so every unit is read exactly once. */
  method CombineUnits(units: seq<Unit>) returns (r: Option<string>)
    ensures r == Combine(units)
  {
    var result: string := "";
    var i := 0;
    assert units[i..] == units;
    assert Combine(units).Some? ==> "" + Combine(units).value == Combine(units).value;
    while i < |units|
      invariant 0 <= i <= |units|
      invariant Combine(units) == Prepend(result, Combine(units[i..]))
      decreases |units| - i
    {
      ghost var rest := units[i..];
      if i + 1 < |units| && units[i].CHO? && units[i + 1].JUNG? {
        SyllableStep(rest);
        var lead := LeadIndex(units[i].lead);
        var vowel := VowelIndex(units[i + 1].vowel);
        if lead.None? || vowel.None? {
          return None;
        }
        var trail: nat;
        if i + 2 < |units| && units[i + 2].JONG? {
          var t := TrailIndex(units[i + 2].trail);
          if t.None? {
            return None;
          }
          trail := t.value;
          i := i + 3;
        } else {
          trail := 0;
          i := i + 2;
        }
        var syllable := Compose(lead.value, vowel.value, trail);
        assert units[i..] == rest[SyllableWidth(rest)..];
        PrependTwice(result, [syllable], Combine(units[i..]));
        result := result + [syllable];
      } else {
        RawStep(rest);
        assert units[i + 1..] == rest[1..];
        PrependTwice(result, RawValue(units[i]), Combine(units[i + 1..]));
        result := result + RawValue(units[i]);
        i := i + 1;
      }
    }
    assert units[i..] == [];
    r := Prepend(result, Some(""));
    assert result + "" == result;
  }

  lemma SyllableStep(units: seq<Unit>)
    requires StartsSyllable(units)
    ensures SyllableAt(units).None? ==> Combine(units).None?
    ensures SyllableAt(units).Some? ==>
      Combine(units) == Prepend([SyllableAt(units).value], Combine(units[SyllableWidth(units)..]))
  {
  }

  lemma RawStep(units: seq<Unit>)
    requires |units| > 0 && !StartsSyllable(units)
    ensures Combine(units) == Prepend(RawValue(units[0]), Combine(units[1..]))
  {
  }

  lemma PrependTwice(a: string, b: string, r: Option<string>)
    ensures Prepend(a, Prepend(b, r)) == Prepend(a + b, r)
  {
    if r.Some? {
      assert a + (b + r.value) == (a + b) + r.value;
    }
  }

  /** The word `extract_keywords` counts for a token: a lone ENG unit is taken
      as its text, anything else goes through `combine_units`. The shortcut
      never changes the result. */
  function KeywordOf(token: Token): (r: Option<string>)
    ensures r == Combine(token)
  {
    if |token| == 1 && token[0].ENG? then
      assert token[1..] == [];
      assert RawValue(token[0]) + "" == token[0].text;
      Some(token[0].text)
    else Combine(token)
  }

  /** No CHO unit of the token is followed by a JUNG unit. */
  predicate NoSyllableStart(units: seq<Unit>) {
    forall i :: 0 <= i < |units| - 1 ==> !(units[i].CHO? && units[i + 1].JUNG?)
  }

  /** A token in which no syllable can start is never rejected: it decodes to
      the raw characters of its units, in order (for instance two CHO units in
      a row give both consonants). */
  lemma {:induction false} NoSyllableDecodesRaw(units: seq<Unit>)
    requires NoSyllableStart(units)
    ensures Combine(units) == Some(Concat(seq(|units|, i requires 0 <= i < |units| => RawValue(units[i]))))
    decreases |units|
  {
    if |units| > 0 {
      assert !StartsSyllable(units);
      var tail := units[1..];
      assert NoSyllableStart(tail) by {
        forall i | 0 <= i < |tail| - 1 ensures !(tail[i].CHO? && tail[i + 1].JUNG?) {
          assert tail[i] == units[i + 1] && tail[i + 1] == units[i + 2];
        }
      }
      NoSyllableDecodesRaw(tail);
      var raws := seq(|units|, i requires 0 <= i < |units| => RawValue(units[i]));
      assert raws[1..] == seq(|tail|, i requires 0 <= i < |tail| => RawValue(tail[i]));
    }
  }

  /** Every jamo value of the token is in the table its tag looks it up in. */
  predicate InTables(units: seq<Unit>) {
    forall i :: 0 <= i < |units| ==>
      match units[i]
      case ENG(_) => true
      case CHO(c) => c in LeadTable
      case JUNG(c) => c in VowelTable
      case JONG(c) => c in TrailTable
  }

  /** A token whose jamo all come from the tables always decodes. */
  lemma {:induction false} InTablesDecodes(units: seq<Unit>)
    requires InTables(units)
    ensures Combine(units).Some?
    decreases |units|
  {
    if |units| > 0 {
      var n := if StartsSyllable(units) then SyllableWidth(units) else 1;
      var tail := units[n..];
      assert InTables(tail) by {
        forall i | 0 <= i < |tail| ensures tail[i] == units[i + n] { }
      }
      if StartsSyllable(units) {
        assert units[0] == CHO(units[0].lead) && units[1] == JUNG(units[1].vowel);
        if n == 3 {
          assert units[2] == JONG(units[2].trail);
        }
      }
      InTablesDecodes(tail);
    }
  }
}

=== FILE: encoder.dfy ===
/** The caption encoder of the Instagram preprocessing stage
    (`clean_text`, `decompose_hangul` and `compress_decompose`).

    A caption is cleaned, split into words, and each word becomes tokens:
    one ENG token per maximal run of ASCII letters, one single-unit token per
    standalone jamo, and last, one group token holding the CHO/JUNG/[JONG]
    units of every syllable of the word. */
module Encoder {
  import opened Wrappers
  import opened Hangul
  import opened Units
  import opened Text
  import opened Seqs

  // Cleaning

  /** The characters `clean_text` keeps: ASCII letters and digits, syllables,
      consonant jamo and whitespace. Vowel jamo are not among them. */
  predicate Kept(c: char) {
    IsAsciiLetter(c) || IsAsciiDigit(c) || IsSyllable(c) || IsConsonantJamo(c) || IsSpace(c)
  }

  /** `clean_text`: deletes every character that is not kept. */
  function Clean(text: string): (r: string)
    ensures forall i :: 0 <= i < |r| ==> Kept(r[i])
    ensures |r| <= |text|
  {
    if |text| == 0 then []
    else (if Kept(text[0]) then [text[0]] else []) + Clean(text[1..])
  }

  /** Cleaning deletes every occurrence of a character that is not kept and
      no occurrence of one that is. */
  lemma {:induction false} CleanCounts(text: string)
    ensures forall c :: multiset(Clean(text))[c] == if Kept(c) then multiset(text)[c] else 0
  {
    if |text| > 0 {
      CleanCounts(text[1..]);
      assert text == [text[0]] + text[1..];
    }
  }

  /** Cleaning works character by character, so it keeps the order of what it keeps. */
  lemma {:induction false} CleanAppend(a: string, b: string)
    ensures Clean(a + b) == Clean(a) + Clean(b)
  {
    if |a| == 0 {
      assert a + b == b;
    } else {
      assert (a + b)[1..] == a[1..] + b;
      CleanAppend(a[1..], b);
    }
  }

  /** A text of kept characters comes out of cleaning unchanged. */
  lemma {:induction false} CleanKeepsKept(s: string)
    requires forall i :: 0 <= i < |s| ==> Kept(s[i])
    ensures Clean(s) == s
  {
    if |s| > 0 {
      CleanKeepsKept(s[1..]);
    }
  }

  /** Cleaning is idempotent. */
  lemma CleanTwice(text: string)
    ensures Clean(Clean(text)) == Clean(text)
  {
    CleanKeepsKept(Clean(text));
  }

  // One character

  /** `decompose_hangul`: the (lead, vowel, trail) jamo of one character.
      For a syllable, the jamo it returns are found again by the decoder's
      table lookups at the syllable's own indices, and a trail jamo is there
      exactly when the trail index is not 0. */
  function Decompose(c: char): (r: (Option<char>, Option<char>, Option<char>))
    ensures IsSyllable(c) ==>
      && r.0.Some? && LeadIndex(r.0.value) == Some(SyllableIndices(c).0)
      && r.1.Some? && VowelIndex(r.1.value) == Some(SyllableIndices(c).1)
      && (r.2.Some? <==> SyllableIndices(c).2 != 0)
      && (r.2.Some? ==> TrailIndex(r.2.value) == Some(SyllableIndices(c).2))
    ensures IsConsonantJamo(c) ==> r == (Some(c), None, None)
    ensures IsVowelJamo(c) ==> r == (None, Some(c), None)
    ensures !IsSyllable(c) && !IsConsonantJamo(c) && !IsVowelJamo(c) ==> r == (None, None, None)
  {
    if IsSyllable(c) then
      var (lead, vowel, trail) := SyllableIndices(c);
      LookupsInvert(lead, vowel, trail);
      (Some(LeadTable[lead]), Some(VowelTable[vowel]),
       if trail != 0 then Some(TrailTable[trail - 1]) else None)
    else if IsConsonantJamo(c) then (Some(c), None, None)
    else if IsVowelJamo(c) then (None, Some(c), None)
    else (None, None, None)
  }

  /** The units built from one non-letter character: CHO, JUNG, JONG for the
      parts that are present, in that order. A standalone jamo gives one unit,
      a syllable two or three, anything else none. */
  function CharUnits(c: char): (us: seq<Unit>)
    ensures |us| == 1 <==> IsConsonantJamo(c) || IsVowelJamo(c)
    ensures |us| >= 2 <==> IsSyllable(c)
    ensures |us| <= 3
    ensures IsConsonantJamo(c) ==> us == [CHO(c)]
    ensures IsVowelJamo(c) ==> us == [JUNG(c)]
  {
    PartUnits(Decompose(c))
  }

  /** CHO, JUNG, JONG for the parts of a decomposition that are present. */
  function PartUnits(d: (Option<char>, Option<char>, Option<char>)): (us: seq<Unit>)
    ensures |us| == (if d.0.Some? then 1 else 0) + (if d.1.Some? then 1 else 0) + (if d.2.Some? then 1 else 0)
    ensures d.0.Some? ==> us[0] == CHO(d.0.value)
    ensures d.1.Some? ==> us[if d.0.Some? then 1 else 0] == JUNG(d.1.value)
    ensures d.2.Some? ==> us[|us| - 1] == JONG(d.2.value)
  {
    (if d.0.Some? then [CHO(d.0.value)] else [])
    + (if d.1.Some? then [JUNG(d.1.value)] else [])
    + (if d.2.Some? then [JONG(d.2.value)] else [])
  }

  /** The units of a syllable, looked up in the decoder's tables, give the
      syllable's indices: CHO and JUNG always, JONG exactly when the trail
      index is not 0. */
  lemma CharUnitsOfSyllable(c: char)
    requires IsSyllable(c)
    ensures var us := CharUnits(c);
      && 2 <= |us| <= 3 && us[0].CHO? && us[1].JUNG?
      && LeadIndex(us[0].lead) == Some(SyllableIndices(c).0)
      && VowelIndex(us[1].vowel) == Some(SyllableIndices(c).1)
      && (|us| == 3 <==> SyllableIndices(c).2 != 0)
      && (|us| == 3 ==> us[2].JONG? && TrailIndex(us[2].trail) == Some(SyllableIndices(c).2))
  {
    var d := Decompose(c);
    assert CharUnits(c) == PartUnits(d);
  }

  // One word, as a reference definition

  /** Length of the leading run of ASCII letters. */
  function LetterRunLength(s: string): (k: nat)
    ensures k <= |s|
    ensures forall i :: 0 <= i < k ==> IsAsciiLetter(s[i])
    ensures k == |s| || !IsAsciiLetter(s[k])
  {
    if |s| == 0 || !IsAsciiLetter(s[0]) then 0 else 1 + LetterRunLength(s[1..])
  }

  predicate IsLetterRun(s: string) {
    |s| > 0 && forall i :: 0 <= i < |s| ==> IsAsciiLetter(s[i])
  }

  /** A token that is not a syllable group: one ENG unit holding a letter run,
      or one standalone jamo. */
  predicate IsPiece(t: Token) {
    && |t| == 1
    && match t[0]
       case ENG(s) => IsLetterRun(s)
       case CHO(c) => IsConsonantJamo(c)
       case JUNG(c) => IsVowelJamo(c)
       case JONG(_) => false
  }

  /** The tokens of a word other than its group, by maximal munch: each maximal
      letter run is one ENG token, each jamo its own token, anything else
      (digits, syllables) yields nothing here. */
  function Pieces(w: string): (ts: seq<Token>)
    ensures forall t :: t in ts ==> IsPiece(t)
    decreases |w|
  {
    if |w| == 0 then []
    else if IsAsciiLetter(w[0]) then
      var k := LetterRunLength(w);
      [[ENG(w[..k])]] + Pieces(w[k..])
    else if IsConsonantJamo(w[0]) then [[CHO(w[0])]] + Pieces(w[1..])
    else if IsVowelJamo(w[0]) then [[JUNG(w[0])]] + Pieces(w[1..])
    else Pieces(w[1..])
  }

  /** The units of all syllables of a word, in order. */
  function Group(w: string): seq<Unit>
  {
    if |w| == 0 then []
    else (if IsSyllable(w[0]) then CharUnits(w[0]) else []) + Group(w[1..])
  }

  /** The tokens of one word: its pieces, then its group token if it has syllables. */
  function EncodeWord(w: string): (ts: seq<Token>)
  {
    Pieces(w) + (if |Group(w)| == 0 then [] else [Group(w)])
  }

  function EncodeWords(ws: seq<string>): (ts: seq<Token>)
  {
    if |ws| == 0 then [] else EncodeWord(ws[0]) + EncodeWords(ws[1..])
  }

  /** The tokens of a caption: those of each word of the cleaned text, in word order. */
  function Encode(text: string): (ts: seq<Token>)
  {
    EncodeWords(Split(Clean(text)))
  }

  // The source's loop, one character at a time

  /** The state of the inner loop of `compress_decompose`: the tokens emitted
      so far, the pending run of letters, and the pending syllable units. */
  datatype WordState = WordState(result: seq<Token>, buffer: string, group: seq<Unit>)

  /** The loop body on one character. A letter extends the buffer; anything
      else first flushes the buffer as an ENG token, then emits a lone jamo
      unit as its own token or adds syllable units to the group. */
  function Feed(st: WordState, c: char): WordState {
    if IsAsciiLetter(c) then WordState(st.result, st.buffer + [c], st.group)
    else
      var flushed := if |st.buffer| > 0 then st.result + [[ENG(st.buffer)]] else st.result;
      var units := CharUnits(c);
      if |units| == 1 then WordState(flushed + [units], "", st.group)
      else if |units| > 0 then WordState(flushed, "", st.group + units)
      else WordState(flushed, "", st.group)
  }

  /** The loop state after reading the characters of `w` from left to right. */
  function Scan(w: string): (st: WordState)
    ensures |st.buffer| <= |w|
    decreases |w|
  {
    if |w| == 0 then WordState([], "", [])
    else Feed(Scan(w[..|w| - 1]), w[|w| - 1])
  }

  /** The tokens emitted once the pending letter run is flushed. */
  function Flushed(st: WordState): seq<Token> {
    if |st.buffer| > 0 then st.result + [[ENG(st.buffer)]] else st.result
  }

  /** After the loop: the pending letter run, then the group, are emitted. */
  function Finish(st: WordState): seq<Token> {
    Flushed(st) + (if |st.group| > 0 then [st.group] else [])
  }

  /** The inner loop of `compress_decompose` for one word. */
  method CompressWord(w: string) returns (tokens: seq<Token>)
    ensures tokens == EncodeWord(w)
  {
    var result: seq<Token> := [];
    var buffer: string := "";
    var group: seq<Unit> := [];
    var i := 0;
    while i < |w|
      invariant 0 <= i <= |w|
      invariant WordState(result, buffer, group) == Scan(w[..i])
    {
      var c := w[i];
      assert w[..i + 1][..i] == w[..i];
      if IsAsciiLetter(c) {
        buffer := buffer + [c];
      } else {
        if |buffer| > 0 {
          result := result + [[ENG(buffer)]];
          buffer := "";
        }
        var units := CharUnits(c);
        if |units| == 1 {
          result := result + [units];
        } else if |units| > 0 {
          group := group + units;
        }
      }
      i := i + 1;
    }
    if |buffer| > 0 {
      result := result + [[ENG(buffer)]];
    }
    if |group| > 0 {
      result := result + [group];
    }
    assert w[..|w|] == w;
    ScanEncodes(w);
    tokens := result;
  }

  /** `compress_decompose`: cleans, splits, and encodes word after word. */
  method CompressDecompose(text: string) returns (result: seq<Token>)
    ensures result == Encode(text)
  {
    var words := Split(Clean(text));
    result := [];
    var k := 0;
    while k < |words|
      invariant 0 <= k <= |words|
      invariant result == EncodeWords(words[..k])
    {
      var tokens := CompressWord(words[k]);
      assert words[..k + 1] == words[..k] + [words[k]];
      EncodeWordsAppend(words[..k], [words[k]]);
      result := result + tokens;
      k := k + 1;
    }
    assert words[..|words|] == words;
  }

  // Lemmas about the reference definition

  lemma {:induction false} LetterRunLengthAppend(a: string, b: string)
    requires |a| > 0 && IsAsciiLetter(a[0])
    ensures LetterRunLength(a) < |a| ==> LetterRunLength(a + b) == LetterRunLength(a)
    ensures LetterRunLength(a) == |a| && (|b| == 0 || !IsAsciiLetter(b[0])) ==>
              LetterRunLength(a + b) == |a|
  {
    if |a| > 1 && IsAsciiLetter(a[1]) {
      assert (a + b)[1..] == a[1..] + b;
      LetterRunLengthAppend(a[1..], b);
    } else if |a| == 1 && |b| > 0 {
      assert (a + b)[1..] == b;
    }
  }

  /** Pieces can be computed separately on both sides of a cut that does not
      fall inside a letter run. */
  lemma {:induction false} PiecesAppend(a: string, b: string)
    requires |a| == 0 || |b| == 0 || !IsAsciiLetter(a[|a| - 1]) || !IsAsciiLetter(b[0])
    ensures Pieces(a + b) == Pieces(a) + Pieces(b)
    decreases |a|
  {
    var s := a + b;
    if |a| == 0 {
      assert s == b;
    } else if |b| == 0 {
      assert s == a;
    } else if IsAsciiLetter(a[0]) {
      LetterRunLengthAppend(a, b);
      var k := LetterRunLength(a);
      if k < |a| {
        PiecesAppend(a[k..], b);
        PiecesAfterRun(a, b, k);
      } else {
        assert s[..k] == a && s[k..] == b;
        assert a[..k] == a && a[k..] == [];
      }
    } else {
      assert s[1..] == a[1..] + b;
      PiecesAppend(a[1..], b);
    }
  }

  /** The leading letter run of `a` stays the leading run of `a + b` when it
      ends inside `a`. */
  lemma PiecesAfterRun(a: string, b: string, k: nat)
    requires 0 < |a| && IsAsciiLetter(a[0]) && k == LetterRunLength(a) && k < |a|
    requires LetterRunLength(a + b) == k
    requires Pieces(a[k..] + b) == Pieces(a[k..]) + Pieces(b)
    ensures Pieces(a + b) == Pieces(a) + Pieces(b)
  {
    var s := a + b;
    assert s[..k] == a[..k];
    assert s[k..] == a[k..] + b;
  }

  /** Emitting the buffered letter run: a run of letters after a cut is one ENG token. */
  lemma FlushRun(a: string, run: string)
    requires IsLetterRun(run)
    requires |a| == 0 || !IsAsciiLetter(a[|a| - 1])
    ensures Pieces(a + run) == Pieces(a) + [[ENG(run)]]
  {
    PiecesAppend(a, run);
    assert LetterRunLength(run) == |run|;
    assert run[..|run|] == run && run[|run|..] == [];
  }

  /** A letter adds nothing to the group. */
  lemma GroupStep(a: string, c: char)
    requires IsAsciiLetter(c)
    ensures Group(a + [c]) == Group(a)
  {
    GroupAppend(a, [c]);
  }

  /** What one non-letter character adds to the pieces: a single-unit token
      for a jamo, nothing otherwise. */
  lemma NonLetterPieces(a: string, c: char)
    requires !IsAsciiLetter(c)
    ensures |CharUnits(c)| == 1 ==> Pieces(a + [c]) == Pieces(a) + [CharUnits(c)]
    ensures |CharUnits(c)| != 1 ==> Pieces(a + [c]) == Pieces(a)
  {
    PiecesAppend(a, [c]);
    assert [c][1..] == [];
  }

  /** What one non-letter character adds to the group: its units for a
      syllable, nothing otherwise. */
  lemma NonLetterGroup(a: string, c: char)
    requires !IsAsciiLetter(c)
    ensures |CharUnits(c)| >= 2 ==> Group(a + [c]) == Group(a) + CharUnits(c)
    ensures |CharUnits(c)| < 2 ==> Group(a + [c]) == Group(a)
  {
    GroupAppend(a, [c]);
    assert [c][1..] == [];
  }

  /** A word has a group token exactly when it has a syllable; the token then
      starts with a CHO unit. */
  lemma {:induction false} GroupShape(w: string)
    ensures |Group(w)| == 0 <==> forall i :: 0 <= i < |w| ==> !IsSyllable(w[i])
    ensures |Group(w)| > 0 ==> Group(w)[0].CHO?
  {
    if |w| > 0 {
      GroupShape(w[1..]);
      if !IsSyllable(w[0]) {
        forall i | 0 < i < |w| ensures w[i] == w[1..][i - 1] { }
      }
    }
  }

  lemma {:induction false} GroupAppend(a: string, b: string)
    ensures Group(a + b) == Group(a) + Group(b)
  {
    if |a| == 0 {
      assert a + b == b;
    } else {
      GroupAppend(a[1..], b);
      GroupCons(a + b, a[0], a[1..] + b);
      GroupCons(a, a[0], a[1..]);
    }
  }

  lemma GroupCons(s: string, c: char, rest: string)
    requires s == [c] + rest
    ensures Group(s) == (if IsSyllable(c) then CharUnits(c) else []) + Group(rest)
  {
    assert s[0] == c && s[1..] == rest;
  }

  lemma {:induction false} EncodeWordsAppend(a: seq<string>, b: seq<string>)
    ensures EncodeWords(a + b) == EncodeWords(a) + EncodeWords(b)
  {
    if |a| == 0 {
      assert a + b == b;
    } else {
      assert (a + b)[1..] == a[1..] + b;
      EncodeWordsAppend(a[1..], b);
    }
  }

  // The loop agrees with the reference definition

  /** The pending buffer is the run of letters at the end of what was read,
      and that run is maximal. */
  lemma {:induction false} ScanBuffer(w: string)
    ensures var b := Scan(w).buffer;
      && b == w[|w| - |b|..]
      && (forall j :: |w| - |b| <= j < |w| ==> IsAsciiLetter(w[j]))
      && (|b| == |w| || !IsAsciiLetter(w[|w| - |b| - 1]))
    decreases |w|
  {
    if |w| > 0 {
      var p := w[..|w| - 1];
      var c := w[|w| - 1];
      assert w == p + [c];
      var st := Scan(p);
      assert Scan(w) == Feed(st, c);
      assert Feed(st, c).buffer == if IsAsciiLetter(c) then st.buffer + [c] else "";
      ScanBuffer(p);
      if IsAsciiLetter(c) {
        BufferAfterLetter(p, c, st.buffer);
      }
    }
  }

  lemma BufferAfterLetter(p: string, c: char, b: string)
    requires IsAsciiLetter(c) && |b| <= |p| && b == p[|p| - |b|..]
    requires forall j :: |p| - |b| <= j < |p| ==> IsAsciiLetter(p[j])
    requires |b| == |p| || !IsAsciiLetter(p[|p| - |b| - 1])
    ensures var w := p + [c];
      && b + [c] == w[|w| - |b| - 1..]
      && (forall j :: |w| - |b| - 1 <= j < |w| ==> IsAsciiLetter(w[j]))
      && (|b| + 1 == |w| || !IsAsciiLetter(w[|w| - |b| - 2]))
  {
    var w := p + [c];
    assert w[|w| - |b| - 1..] == p[|p| - |b|..] + [c];
    assert forall j :: 0 <= j < |p| ==> w[j] == p[j];
  }

  /** The pending group holds the units of every syllable read so far. */
  lemma {:induction false} ScanGroup(w: string)
    ensures Scan(w).group == Group(w)
    decreases |w|
  {
    if |w| > 0 {
      var p := w[..|w| - 1];
      var c := w[|w| - 1];
      assert w == p + [c];
      ScanGroup(p);
      if IsAsciiLetter(c) {
        GroupStep(p, c);
      } else {
        NonLetterGroup(p, c);
      }
    }
  }

  /** The tokens emitted so far are the pieces of everything before the
      pending letter run. */
  lemma {:induction false} ScanResult(w: string)
    ensures Scan(w).result == Pieces(w[..|w| - |Scan(w).buffer|])
    decreases |w|
  {
    if |w| > 0 {
      var p := w[..|w| - 1];
      var st := Scan(p);
      assert Scan(w) == Feed(st, w[|w| - 1]);
      ScanResult(p);
      ScanBuffer(p);
      if IsAsciiLetter(w[|w| - 1]) {
        ResultAfterLetter(st, w);
      } else {
        ResultAfterOther(st, w);
      }
    }
  }

  lemma ResultAfterLetter(st: WordState, w: string)
    requires |w| > 0 && IsAsciiLetter(w[|w| - 1]) && |st.buffer| < |w|
    requires st.result == Pieces(w[..|w| - 1][..|w| - 1 - |st.buffer|])
    ensures Feed(st, w[|w| - 1]).result == Pieces(w[..|w| - |Feed(st, w[|w| - 1]).buffer|])
  {
    assert w[..|w| - 1][..|w| - 1 - |st.buffer|] == w[..|w| - 1 - |st.buffer|];
  }

  lemma ResultAfterOther(st: WordState, w: string)
    requires |w| > 0 && !IsAsciiLetter(w[|w| - 1])
    requires var p := w[..|w| - 1];
      && |st.buffer| <= |p| && st.buffer == p[|p| - |st.buffer|..]
      && (forall j :: |p| - |st.buffer| <= j < |p| ==> IsAsciiLetter(p[j]))
      && (|st.buffer| == |p| || !IsAsciiLetter(p[|p| - |st.buffer| - 1]))
      && st.result == Pieces(p[..|p| - |st.buffer|])
    ensures Feed(st, w[|w| - 1]).result == Pieces(w[..|w| - |Feed(st, w[|w| - 1]).buffer|])
  {
    var p := w[..|w| - 1];
    var c := w[|w| - 1];
    FlushedPieces(st, p);
    FeedOtherPieces(st, p, c);
    assert w == p + [c];
    assert w[..|w| - |Feed(st, c).buffer|] == w;
  }

  /** A non-letter character after the flushed pieces of `p`. */
  lemma FeedOtherPieces(st: WordState, p: string, c: char)
    requires !IsAsciiLetter(c)
    requires Flushed(st) == Pieces(p)
    ensures Feed(st, c).buffer == ""
    ensures Feed(st, c).result == Pieces(p + [c])
  {
    FeedOther(st, c);
    NonLetterPieces(p, c);
  }

  lemma FeedOther(st: WordState, c: char)
    requires !IsAsciiLetter(c)
    ensures Feed(st, c).buffer == ""
    ensures Feed(st, c).result == if |CharUnits(c)| == 1 then Flushed(st) + [CharUnits(c)] else Flushed(st)
  {
  }

  /** The single pass of `compress_decompose` over a word gives exactly the
      tokens of the maximal-munch definition: letter runs and jamo in order
      of appearance, then one group of all syllable units. */
  lemma ScanEncodes(w: string)
    ensures Finish(Scan(w)) == EncodeWord(w)
  {
    ScanBuffer(w);
    ScanResult(w);
    FlushedPieces(Scan(w), w);
    ScanGroup(w);
  }

  /** Flushing the pending letter run completes the word's pieces. */
  lemma FlushedPieces(st: WordState, w: string)
    requires |st.buffer| <= |w| && st.buffer == w[|w| - |st.buffer|..]
    requires forall j :: |w| - |st.buffer| <= j < |w| ==> IsAsciiLetter(w[j])
    requires |st.buffer| == |w| || !IsAsciiLetter(w[|w| - |st.buffer| - 1])
    requires st.result == Pieces(w[..|w| - |st.buffer|])
    ensures Flushed(st) == Pieces(w)
  {
    var start := |w| - |st.buffer|;
    if start < |w| {
      assert IsLetterRun(w[start..]);
      FlushRun(w[..start], w[start..]);
      assert w == w[..start] + w[start..];
    } else {
      assert w[..start] == w;
    }
  }

  // Whitespace and empty captions

  /** Whitespace separates: the tokens of `a c b`, with `c` whitespace, are
      the tokens of `a` followed by those of `b`. */
  lemma EncodeAtSpace(a: string, c: char, b: string)
    requires IsSpace(c)
    ensures Encode(a + [c] + b) == Encode(a) + Encode(b)
  {
    CleanAppend(a + [c], b);
    CleanAppend(a, [c]);
    assert [c][1..] == [];
    assert Clean([c]) == [c];
    SplitAtSpace(Clean(a), c, Clean(b));
    EncodeWordsAppend(Split(Clean(a)), Split(Clean(b)));
  }

  /** The characters that give a token inside a word. */
  predicate Yields(c: char) {
    IsAsciiLetter(c) || IsConsonantJamo(c) || IsVowelJamo(c) || IsSyllable(c)
  }

  /** The characters of a caption that give a token: ASCII letters,
      consonant jamo and syllables (cleaning removes vowel jamo). */
  predicate Productive(c: char) {
    IsAsciiLetter(c) || IsConsonantJamo(c) || IsSyllable(c)
  }

  lemma {:induction false} PiecesEmpty(w: string)
    ensures |Pieces(w)| == 0 <==> forall i :: 0 <= i < |w| ==> !(IsAsciiLetter(w[i]) || IsConsonantJamo(w[i]) || IsVowelJamo(w[i]))
    decreases |w|
  {
    if |w| > 0 && !(IsAsciiLetter(w[0]) || IsConsonantJamo(w[0]) || IsVowelJamo(w[0])) {
      PiecesEmpty(w[1..]);
      forall i | 0 < i < |w| ensures w[i] == w[1..][i - 1] { }
    }
  }

  /** A word gives no token exactly when it holds no letter, jamo or syllable. */
  lemma WordEmpty(w: string)
    ensures |EncodeWord(w)| == 0 <==> forall c :: c in w ==> !Yields(c)
  {
    PiecesEmpty(w);
    GroupShape(w);
    assert (forall c :: c in w ==> !Yields(c)) <==> (forall i :: 0 <= i < |w| ==> !Yields(w[i])) by {
      if exists i :: 0 <= i < |w| && Yields(w[i]) {
        var i :| 0 <= i < |w| && Yields(w[i]);
        assert w[i] in w;
      }
    }
  }

  lemma {:induction false} WordsEmpty(ws: seq<string>)
    ensures |EncodeWords(ws)| == 0 <==> forall c :: c in Concat(ws) ==> !Yields(c)
  {
    if |ws| > 0 {
      WordEmpty(ws[0]);
      WordsEmpty(ws[1..]);
    }
  }

  lemma CleanChars(text: string)
    ensures forall c :: c in Clean(text) <==> c in text && Kept(c)
  {
    CleanCounts(text);
    forall c ensures c in Clean(text) <==> c in text && Kept(c) {
      assert c in Clean(text) <==> c in multiset(Clean(text));
      assert c in text <==> c in multiset(text);
    }
  }

  /** A caption gives no token at all exactly when it holds no ASCII letter,
      consonant jamo or syllable. */
  lemma EncodeEmptyIff(text: string)
    ensures |Encode(text)| == 0 <==> forall c :: c in text ==> !Productive(c)
  {
    WordsEmpty(Split(Clean(text)));
    WordChars(text);
    forall c ensures Yields(c) && Kept(c) && !IsSpace(c) <==> Productive(c) {
    }
  }

  /** The characters of the words of a cleaned caption are the kept,
      non-whitespace characters of the caption. */
  lemma WordChars(text: string)
    ensures forall c :: c in Concat(Split(Clean(text))) <==> c in text && Kept(c) && !IsSpace(c)
  {
    var s := Clean(text);
    SplitKeepsNonSpace(s);
    RemoveSpacesChars(s);
    CleanChars(text);
  }

  // The vowel branch of `decompose_hangul`

  /** A token that starts with an ENG or a CHO unit. */
  predicate StartsLeadOrLetters(t: Token) {
    |t| > 0 && (t[0].ENG? || t[0].CHO?)
  }

  /** A word without vowel jamo gives no token that starts with a JUNG unit:
      every token starts with an ENG or a CHO unit. */
  lemma {:induction false} PiecesStartLeadOrLetters(w: string)
    requires forall i :: 0 <= i < |w| ==> !IsVowelJamo(w[i])
    ensures forall t :: t in Pieces(w) ==> StartsLeadOrLetters(t)
    decreases |w|
  {
    if |w| > 0 {
      var k := if IsAsciiLetter(w[0]) then LetterRunLength(w) else 1;
      assert forall i :: 0 <= i < |w[k..]| ==> w[k..][i] == w[i + k];
      PiecesStartLeadOrLetters(w[k..]);
    }
  }

  lemma WordStartsLeadOrLetters(w: string)
    requires forall c :: c in w ==> !IsVowelJamo(c)
    ensures forall t :: t in EncodeWord(w) ==> StartsLeadOrLetters(t)
  {
    PiecesStartLeadOrLetters(w);
    GroupShape(w);
  }

  lemma {:induction false} WordsStartLeadOrLetters(ws: seq<string>)
    requires forall c :: c in Concat(ws) ==> !IsVowelJamo(c)
    ensures forall t :: t in EncodeWords(ws) ==> StartsLeadOrLetters(t)
  {
    if |ws| > 0 {
      assert Concat(ws) == ws[0] + Concat(ws[1..]);
      WordStartsLeadOrLetters(ws[0]);
      WordsStartLeadOrLetters(ws[1..]);
    }
  }

  /** Cleaning removes every vowel jamo, so no token of a caption starts with
      a JUNG unit: the vowel branch of `decompose_hangul` is never taken. */
  lemma NoVowelTokens(text: string)
    ensures forall t :: t in Encode(text) ==> StartsLeadOrLetters(t)
  {
    WordChars(text);
    WordsStartLeadOrLetters(Split(Clean(text)));
  }
}

=== FILE: examples.dfy ===
/** Worked instances of the encoder, the decoder and the frequency table on
    small captions, each derived from the general definitions. */
module Examples {
  import opened Wrappers
  import opened Hangul
  import opened Units
  import opened Text
  import opened Encoder
  import opened Decoder
  import opened Counter
  import opened RoundTrip

  /** A syllable with a trail decomposes into three units, whose jamo are
      the table entries at its indices. */
  lemma SyllableWithTrail(c: char, lead: nat, vowel: nat, trail: nat)
    requires lead < LeadCount && vowel < VowelCount && 0 < trail < TrailCount
    requires c as int == 0xAC00 + lead * 588 + vowel * 28 + trail
    ensures CharUnits(c) == [CHO(LeadTable[lead]), JUNG(VowelTable[vowel]), JONG(TrailTable[trail - 1])]
  {
    IndicesInRange(lead, vowel, trail);
    assert IsSyllable(c);
    var r := SyllableIndices(c);
    IndicesUnique(r.0, r.1, r.2, lead, vowel, trail);
    var d := Decompose(c);
    assert d == (Some(LeadTable[lead]), Some(VowelTable[vowel]), Some(TrailTable[trail - 1]));
    var us := PartUnits(d);
    ThreeUnits(us, CHO(LeadTable[lead]), JUNG(VowelTable[vowel]), JONG(TrailTable[trail - 1]));
  }

  lemma ThreeUnits(us: seq<Unit>, a: Unit, b: Unit, c: Unit)
    requires |us| == 3 && us[0] == a && us[1] == b && us[2] == c
    ensures us == [a, b, c]
  {
  }

  /** 밈 (U+BC08) is lead ㅁ, vowel ㅣ, trail ㅁ. */
  lemma MimUnits()
    ensures CharUnits('밈') == [CHO('ㅁ'), JUNG('ㅣ'), JONG('ㅁ')]
  {
    assert LeadTable[6] == 'ㅁ' && VowelTable[20] == 'ㅣ' && TrailTable[15] == 'ㅁ';
    SyllableWithTrail('밈', 6, 20, 16);
  }

  /** 짱 (U+C9F1) is lead ㅉ, vowel ㅏ, trail ㅇ. */
  lemma JjangUnits()
    ensures CharUnits('짱') == [CHO('ㅉ'), JUNG('ㅏ'), JONG('ㅇ')]
  {
    assert LeadTable[13] == 'ㅉ' && VowelTable[0] == 'ㅏ' && TrailTable[20] == 'ㅇ';
    SyllableWithTrail('짱', 13, 0, 21);
  }

  /** A caption made of one syllable comes back unchanged. */
  lemma MimRoundTrip()
    ensures DecodedText(Encode("밈")) == Some("밈")
  {
    SyllableCaptionRoundTrip("밈");
    RemoveSpacesOfWord("밈");
  }

  /** Two consonant units in a row are not rejected: each is copied out raw. */
  lemma TwoLeadsDecodeRaw()
    ensures Combine([CHO('ㄱ'), CHO('ㄴ')]) == Some("ㄱㄴ")
  {
    var units := [CHO('ㄱ'), CHO('ㄴ')];
    var tail := [CHO('ㄴ')];
    assert units[1..] == tail && tail[1..] == [];
    RawStep(units);
    RawStep(tail);
    assert "ㄴ" + "" == "ㄴ";
    assert Combine(tail) == Some("ㄴ");
    assert "ㄱ" + "ㄴ" == "ㄱㄴ";
  }

  /** A repeated consonant jamo, as in ㅋㅋㅋ, gives one single-unit CHO
      token per jamo and no group. */
  lemma LaughterEncodes(c: char)
    requires IsConsonantJamo(c)
    ensures Encode([c, c, c]) == [[CHO(c)], [CHO(c)], [CHO(c)]]
  {
    var w := [c, c, c];
    CleanKeepsKept(w);
    SplitOfWord(w);
    LaughterPieces(c);
    GroupShape(w);
    assert EncodeWords([w]) == EncodeWord(w) + EncodeWords([]);
  }

  /** The caption ㅋㅋㅋ gives three CHO ㅋ tokens. */
  lemma KkkEncodes()
    ensures Encode("ㅋㅋㅋ") == [[CHO('ㅋ')], [CHO('ㅋ')], [CHO('ㅋ')]]
  {
    var k := 'ㅋ';
    assert IsConsonantJamo(k);
    LaughterEncodes(k);
    assert "ㅋㅋㅋ" == [k, k, k];
  }

  lemma LaughterPieces(c: char)
    requires IsConsonantJamo(c)
    ensures Pieces([c, c, c]) == [[CHO(c)], [CHO(c)], [CHO(c)]]
  {
    var e: string := [];
    NonLetterPieces(e, c);
    NonLetterPieces([c], c);
    NonLetterPieces([c, c], c);
    assert e + [c] == [c] && [c] + [c] == [c, c] && [c, c] + [c] == [c, c, c];
    assert Pieces(e) == [];
  }

  /** Two English words and a syllable word, separated by spaces: each
      English word is its own ENG token and the syllable is one group token,
      in caption order. */
  lemma MixedEncodes(a: string, b: string, c: char)
    requires IsLetterRun(a) && IsLetterRun(b) && IsSyllable(c)
    ensures Encode(a + " " + b + " " + [c]) == [[ENG(a)], [ENG(b)], CharUnits(c)]
  {
    MixedWords(a, b, c);
    ThreeWords(a, b, [c]);
    LetterWord(a);
    LetterWord(b);
    OneSyllableWord(c);
  }

  lemma ThreeWords(a: string, b: string, w: string)
    ensures EncodeWords([a, b, w]) == EncodeWords([a]) + EncodeWords([b]) + EncodeWords([w])
  {
    assert [a, b, w] == [a] + ([b] + [w]);
    EncodeWordsAppend([a], [b] + [w]);
    EncodeWordsAppend([b], [w]);
  }

  /** The words of such a caption after cleaning. */
  lemma MixedWords(a: string, b: string, c: char)
    requires IsLetterRun(a) && IsLetterRun(b) && IsSyllable(c)
    ensures Split(Clean(a + " " + b + " " + [c])) == [a, b, [c]]
  {
    var text := a + " " + b + " " + [c];
    assert forall i :: 0 <= i < |text| ==> Kept(text[i]);
    CleanKeepsKept(text);
    LetterRunIsWord(a);
    LetterRunIsWord(b);
    assert IsWord([c]);
    assert text == a + [' '] + (b + [' '] + [c]);
    ThreeWordsSplit(a, b, [c]);
  }

  lemma LetterRunIsWord(s: string)
    requires IsLetterRun(s)
    ensures IsWord(s)
  {
    forall i | 0 <= i < |s| ensures !IsSpace(s[i]) {
      assert IsAsciiLetter(s[i]);
    }
  }

  /** Three words separated by single spaces split back into those words. */
  lemma ThreeWordsSplit(a: string, b: string, w: string)
    requires IsWord(a) && IsWord(b) && IsWord(w)
    ensures Split(a + [' '] + (b + [' '] + w)) == [a, b, w]
  {
    SplitAtSpace(a, ' ', b + [' '] + w);
    SplitOfWord(a);
    TwoWordsSplit(b, w);
  }

  lemma TwoWordsSplit(a: string, b: string)
    requires IsWord(a) && IsWord(b)
    ensures Split(a + [' '] + b) == [a, b]
  {
    SplitAtSpace(a, ' ', b);
    SplitOfWord(a);
    SplitOfWord(b);
  }

  /** A word of one syllable is one group token holding its units. */
  lemma OneSyllableWord(c: char)
    requires IsSyllable(c)
    ensures EncodeWords([[c]]) == [CharUnits(c)]
  {
    var e: string := [];
    NonLetterPieces(e, c);
    NonLetterGroup(e, c);
    assert e + [c] == [c];
    assert Pieces(e) == [] && Group(e) == [];
    assert |CharUnits(c)| >= 2;
    assert Pieces([c]) == [];
    assert Group([c]) == CharUnits(c);
    assert EncodeWord([c]) == [CharUnits(c)];
    assert [[c]][1..] == [];
    assert EncodeWords([[c]]) == EncodeWord([c]) + EncodeWords([]);
  }

  /** A word of letters only is one ENG token. */
  lemma LetterWord(w: string)
    requires IsLetterRun(w)
    ensures EncodeWords([w]) == [[ENG(w)]]
  {
    FlushRun("", w);
    assert "" + w == w;
    GroupShape(w);
    assert EncodeWords([w]) == EncodeWord(w) + EncodeWords([]);
  }

  /** A digit survives cleaning but gives no unit; it still ends the letter
      run before it, so "abc1def" gives the two ENG tokens "abc" and "def". */
  lemma DigitSplitsLetterRun(a: string, d: char, b: string)
    requires IsLetterRun(a) && IsAsciiDigit(d) && IsLetterRun(b)
    ensures EncodeWord(a + [d] + b) == [[ENG(a)], [ENG(b)]]
  {
    var e: string := [];
    FlushRun(e, a);
    FlushRun(e, b);
    assert e + a == a && e + b == b;
    assert Pieces(e) == [];
    PiecesAppend([d], b);
    assert Pieces([d]) == [];
    PiecesAppend(a, [d] + b);
    assert a + [d] + b == a + ([d] + b);
    GroupShape(a + [d] + b);
  }
}

/** The stable ordering of `most_common()` on a small table. */
module FrequencyExamples {
  import opened Counter

  /** Equal counts keep first-seen order and larger counts go first: with
      the counts 짱 3, 굿 1, 밈 3 in first-seen order, `most_common()` gives
      짱, 밈, 굿. */
  lemma TieOrder(x: Entry, y: Entry, z: Entry)
    requires y.1 < x.1 && z.1 == x.1
    ensures MostCommon([x, y, z]) == [x, z, y]
  {
    MostCommonSnoc([x, y], z);
    assert [x, y] + [z] == [x, y, z];
    MostCommonPair(x, y);
    InsertTie(x, y, z);
  }

  lemma MostCommonPair(x: Entry, y: Entry)
    requires y.1 <= x.1
    ensures MostCommon([x, y]) == [x, y]
  {
    MostCommonSnoc([x], y);
    assert [x] + [y] == [x, y];
    MostCommonSingle(x);
    InsertSingle(x, y);
  }

  lemma MostCommonSingle(x: Entry)
    ensures MostCommon([x]) == [x]
  {
    var e: seq<Entry> := [];
    MostCommonSnoc(e, x);
    assert e + [x] == [x];
    InsertFirst(x);
  }

  lemma MostCommonSnoc(t: seq<Entry>, x: Entry)
    ensures MostCommon(t + [x]) == InsertByCount(x, MostCommon(t))
  {
    assert (t + [x])[..|t|] == t;
  }

  lemma InsertFirst(x: Entry)
    ensures InsertByCount(x, []) == [x]
  {
  }

  lemma InsertSingle(x: Entry, y: Entry)
    requires y.1 <= x.1
    ensures InsertByCount(y, [x]) == [x, y]
  {
    assert InsertPosition(y, [x]) == 1 by {
      assert [x][1..] == [];
    }
  }

  lemma InsertTie(x: Entry, y: Entry, z: Entry)
    requires y.1 < z.1 <= x.1
    ensures InsertByCount(z, [x, y]) == [x, z, y]
  {
    assert InsertPosition(z, [x, y]) == 1 by {
      assert [x, y][1..] == [y];
    }
  }
}

=== FILE: hangul.dfy ===
/** Hangul syllable arithmetic and the compatibility-jamo lookup tables shared
    by the caption encoder and the keyword decoder.

    A precomposed syllable U+AC00..U+D7A3 is `0xAC00 + lead * 588 + vowel * 28 + trail`
    with lead < 19, vowel < 21 and trail < 28 (trail 0 meaning "no final consonant"),
    as in section 3.12 of the Unicode Standard ("Conjoining Jamo Behavior").
    The repository maps these indices onto compatibility jamo (U+3131..U+3163),
    not onto conjoining-jamo codepoints; the tables below are those mappings. */
module Hangul {
  import opened Wrappers

  // The arithmetic below writes its constants as literals so that the solver
  // sees linear arithmetic: 0xAC00 is the first syllable, 0xD7A3 the last,
  // 588 = 21 * 28 syllables share one lead consonant, 28 share one vowel.
  const LeadCount: nat := 19
  const VowelCount: nat := 21
  const TrailCount: nat := 28

  /** Initial consonants, indexed by lead index. */
  const LeadTable: seq<char> :=
    ['ㄱ', 'ㄲ', 'ㄴ', 'ㄷ', 'ㄸ', 'ㄹ', 'ㅁ', 'ㅂ', 'ㅃ', 'ㅅ',
     'ㅆ', 'ㅇ', 'ㅈ', 'ㅉ', 'ㅊ', 'ㅋ', 'ㅌ', 'ㅍ', 'ㅎ']

  /** Medial vowels, indexed by vowel index. */
  const VowelTable: seq<char> :=
    ['ㅏ', 'ㅐ', 'ㅑ', 'ㅒ', 'ㅓ', 'ㅔ', 'ㅕ', 'ㅖ', 'ㅗ', 'ㅘ',
     'ㅙ', 'ㅚ', 'ㅛ', 'ㅜ', 'ㅝ', 'ㅞ', 'ㅟ', 'ㅠ', 'ㅡ', 'ㅢ', 'ㅣ']

  /** Final consonants for trail indices 1..27: trail index `t` is `TrailTable[t - 1]`.
      Trail index 0 is "no final consonant" and has no character. */
  const TrailTable: seq<char> :=
    ['ㄱ', 'ㄲ', 'ㄳ', 'ㄴ', 'ㄵ', 'ㄶ', 'ㄷ', 'ㄹ', 'ㄺ',
     'ㄻ', 'ㄼ', 'ㄽ', 'ㄾ', 'ㄿ', 'ㅀ', 'ㅁ', 'ㅂ', 'ㅄ',
     'ㅅ', 'ㅆ', 'ㅇ', 'ㅈ', 'ㅊ', 'ㅋ', 'ㅌ', 'ㅍ', 'ㅎ']

  // Character classes

  predicate IsSyllable(c: char) {
    0xAC00 <= c as int <= 0xD7A3
  }

  /** Compatibility consonant jamo U+3131..U+314E. */
  predicate IsConsonantJamo(c: char) {
    0x3131 <= c as int <= 0x314E
  }

  /** Compatibility vowel jamo U+314F..U+3163. */
  predicate IsVowelJamo(c: char) {
    0x314F <= c as int <= 0x3163
  }

  predicate IsAsciiLetter(c: char) {
    'A' <= c <= 'Z' || 'a' <= c <= 'z'
  }

  predicate IsAsciiDigit(c: char) {
    '0' <= c <= '9'
  }

  // Index arithmetic

  /** Splits a syllable into its lead, vowel and trail indices. The indices
      are always inside the tables, and they rebuild the codepoint. */
  function SyllableIndices(c: char): (r: (nat, nat, nat))
    requires IsSyllable(c)
    ensures r.0 < LeadCount && r.1 < VowelCount && r.2 < TrailCount
    ensures 0xAC00 + r.0 * 588 + r.1 * 28 + r.2 == c as int
  {
    var base := c as int - 0xAC00;
    (base / 588, (base % 588) / 28, base % 28)
  }

  /** The syllable with the given indices. It is always a syllable, and splitting
      it gives the same indices back. */
  function Compose(lead: nat, vowel: nat, trail: nat): (c: char)
    requires lead < LeadCount && vowel < VowelCount && trail < TrailCount
    ensures IsSyllable(c)
    ensures c as int == 0xAC00 + lead * 588 + vowel * 28 + trail
    ensures SyllableIndices(c) == (lead, vowel, trail)
  {
    var code := 0xAC00 + lead * 588 + vowel * 28 + trail;
    IndicesInRange(lead, vowel, trail);
    var c := code as char;
    IndicesUnique(lead, vowel, trail, SyllableIndices(c).0, SyllableIndices(c).1, SyllableIndices(c).2);
    c
  }

  lemma IndicesInRange(lead: nat, vowel: nat, trail: nat)
    requires lead < LeadCount && vowel < VowelCount && trail < TrailCount
    ensures 0 <= lead * 588 + vowel * 28 + trail <= 0xD7A3 - 0xAC00
  {
    assert vowel * 28 + trail < 588;
    assert lead * 588 <= 18 * 588;
  }

  /** Two index triples inside the tables that give the same codepoint are equal. */
  lemma IndicesUnique(l1: nat, v1: nat, t1: nat, l2: nat, v2: nat, t2: nat)
    requires l1 < LeadCount && v1 < VowelCount && t1 < TrailCount
    requires l2 < LeadCount && v2 < VowelCount && t2 < TrailCount
    requires l1 * 588 + v1 * 28 + t1 == l2 * 588 + v2 * 28 + t2
    ensures l1 == l2 && v1 == v2 && t1 == t2
  {
    assert v1 * 28 + t1 < 588 && v2 * 28 + t2 < 588;
  }

  /** Composing the indices of a syllable gives the syllable back. */
  lemma ComposeOfIndices(c: char)
    requires IsSyllable(c)
    ensures Compose(SyllableIndices(c).0, SyllableIndices(c).1, SyllableIndices(c).2) == c
  {
  }

  // Table lookups (Python's list.index)

  /** The first position of `c` in `table`, or None where list.index would raise. */
  function IndexOf(table: seq<char>, c: char): (r: Option<nat>)
    ensures r.None? <==> c !in table
    ensures r.Some? ==> r.value < |table| && table[r.value] == c && c !in table[..r.value]
  {
    if |table| == 0 then None
    else if table[0] == c then Some(0)
    else match IndexOf(table[1..], c)
      case None => None
      case Some(i) =>
        assert table[..i + 1] == [table[0]] + table[1..][..i];
        Some(i + 1)
  }

  function LeadIndex(c: char): Option<nat> { IndexOf(LeadTable, c) }
  function VowelIndex(c: char): Option<nat> { IndexOf(VowelTable, c) }

  /** Trail index of a final consonant: one more than its position in TrailTable. */
  function TrailIndex(c: char): (r: Option<nat>)
    ensures r.Some? ==> 1 <= r.value < TrailCount && TrailTable[r.value - 1] == c
    ensures r.None? <==> c !in TrailTable
  {
    match IndexOf(TrailTable, c)
    case None => None
    case Some(i) => Some(i + 1)
  }

  predicate Increasing(table: seq<char>) {
    forall i :: 0 <= i < |table| - 1 ==> table[i] < table[i + 1]
  }

  lemma {:induction false} IncreasingIndexOf(table: seq<char>, k: nat)
    requires Increasing(table) && k < |table|
    ensures IndexOf(table, table[k]) == Some(k)
  {
    if k > 0 {
      IncreasingIndexOf(table[1..], k - 1);
      assert table[1..][k - 1] == table[k];
      IncreasingFirst(table, k);
    }
  }

  lemma {:induction false} IncreasingFirst(table: seq<char>, k: nat)
    requires Increasing(table) && 0 < k < |table|
    ensures table[0] < table[k]
  {
    if k > 1 {
      IncreasingFirst(table[1..], k - 1);
    }
  }

  lemma TablesIncreasing()
    ensures |LeadTable| == LeadCount && Increasing(LeadTable)
    ensures |VowelTable| == VowelCount && Increasing(VowelTable)
    ensures |TrailTable| == TrailCount - 1 && Increasing(TrailTable)
  {
  }

  /** Looking up a table entry finds its own index: the tables have no repeats. */
  lemma LookupsInvert(lead: nat, vowel: nat, trail: nat)
    requires lead < LeadCount && vowel < VowelCount && trail < TrailCount
    ensures LeadIndex(LeadTable[lead]) == Some(lead)
    ensures VowelIndex(VowelTable[vowel]) == Some(vowel)
    ensures 1 <= trail ==> TrailIndex(TrailTable[trail - 1]) == Some(trail)
  {
    TablesIncreasing();
    IncreasingIndexOf(LeadTable, lead);
    IncreasingIndexOf(VowelTable, vowel);
    if 1 <= trail {
      IncreasingIndexOf(TrailTable, trail - 1);
    }
  }
}

=== FILE: keywords.dfy ===
/** `extract_keywords`: every token of every caption is turned into a word,
    the words are counted, and the counts are returned largest first. */
module Keywords {
  import opened Wrappers
  import opened Units
  import opened Seqs
  import opened Decoder
  import opened Counter

  /** The words of a token list, in order, or None if a token fails to decode. */
  function TokenWords(tokens: seq<Token>): (r: Option<seq<string>>)
    ensures r.Some? <==> forall i :: 0 <= i < |tokens| ==> KeywordOf(tokens[i]).Some?
    ensures r.Some? ==> |r.value| == |tokens|
    ensures r.Some? ==> forall i :: 0 <= i < |tokens| ==> r.value[i] == KeywordOf(tokens[i]).value
  {
    if |tokens| == 0 then Some([])
    else
      var word :- KeywordOf(tokens[0]);
      var rest :- TokenWords(tokens[1..]);
      assert forall i :: 1 <= i < |tokens| ==> tokens[i] == tokens[1..][i - 1];
      Some([word] + rest)
  }

  /** All tokens of all captions, in corpus order. */
  function CorpusTokens(corpus: seq<seq<Token>>): seq<Token> {
    Concat(corpus)
  }

  /** `extract_keywords` over a corpus of token lists, one list per caption.
      It fails exactly when some token fails to decode; otherwise it yields
      the frequency table of the decoded words. */
  function ExtractKeywords(corpus: seq<seq<Token>>): (r: Option<seq<Entry>>)
    ensures r.Some? <==> TokenWords(CorpusTokens(corpus)).Some?
    ensures r.Some? ==> IsFrequencyTable(r.value, TokenWords(CorpusTokens(corpus)).value)
    ensures r.Some? ==> SumCounts(r.value) == |CorpusTokens(corpus)|
  {
    var words :- TokenWords(CorpusTokens(corpus));
    MostCommonOfTally(words);
    Some(MostCommon(Tally(words)))
  }
}

=== FILE: roundtrip.dfy ===
/** What the decoder recovers from the encoder's tokens. The syllables of a
    word come back in order from its group token, letter runs and jamo come
    back from their own tokens, and no token the encoder makes hits a table
    lookup failure. */
module RoundTrip {
  import opened Wrappers
  import opened Hangul
  import opened Units
  import opened Seqs
  import opened Text
  import opened Encoder
  import opened Decoder
  import opened Keywords
  import opened Counter

  /** The syllables of a word, in order. */
  function Syllables(w: string): string {
    if |w| == 0 then [] else (if IsSyllable(w[0]) then [w[0]] else []) + Syllables(w[1..])
  }

  predicate IsLetterOrJamo(c: char) {
    IsAsciiLetter(c) || IsConsonantJamo(c) || IsVowelJamo(c)
  }

  /** The ASCII letters and jamo of a word, in order. */
  function LettersAndJamo(w: string): string {
    if |w| == 0 then [] else (if IsLetterOrJamo(w[0]) then [w[0]] else []) + LettersAndJamo(w[1..])
  }

  /** The decoded words of a token list, put end to end; None if one fails. */
  function DecodedText(ts: seq<Token>): Option<string> {
    if |ts| == 0 then Some("")
    else
      var word :- KeywordOf(ts[0]);
      var rest :- DecodedText(ts[1..]);
      Some(word + rest)
  }

  function Join(a: Option<string>, b: Option<string>): Option<string> {
    if a.Some? && b.Some? then Some(a.value + b.value) else None
  }

  /** The units of one syllable, followed by anything that cannot continue
      it, decode to that syllable followed by the rest. */
  lemma SyllableUnitsDecode(c: char, rest: seq<Unit>)
    requires IsSyllable(c)
    requires |rest| == 0 || rest[0].CHO?
    ensures Combine(CharUnits(c) + rest) == Prepend([c], Combine(rest))
  {
    var units := CharUnits(c) + rest;
    SyllableUnitsWidth(c, rest);
    SyllableUnitsCompose(c, rest);
    assert units[|CharUnits(c)|..] == rest;
    SyllableStep(units);
  }

  /** The units of a syllable start a syllable of their own width. */
  lemma SyllableUnitsWidth(c: char, rest: seq<Unit>)
    requires IsSyllable(c)
    requires |rest| == 0 || rest[0].CHO?
    ensures StartsSyllable(CharUnits(c) + rest)
    ensures SyllableWidth(CharUnits(c) + rest) == |CharUnits(c)|
  {
    CharUnitsOfSyllable(c);
    UnitsWidth(CharUnits(c), rest);
  }

  /** Two or three syllable units, followed by nothing or a CHO, form one
      syllable of exactly that width. */
  lemma UnitsWidth(us: seq<Unit>, rest: seq<Unit>)
    requires 2 <= |us| <= 3 && us[0].CHO? && us[1].JUNG? && (|us| == 3 ==> us[2].JONG?)
    requires |rest| == 0 || rest[0].CHO?
    ensures StartsSyllable(us + rest)
    ensures SyllableWidth(us + rest) == |us|
  {
    var units := us + rest;
    assert units[0] == us[0] && units[1] == us[1];
    if |us| == 3 {
      assert units[2] == us[2];
    } else if |rest| > 0 {
      assert units[2] == rest[0];
    }
  }

  /** The units of a syllable recompose to that syllable. */
  lemma SyllableUnitsCompose(c: char, rest: seq<Unit>)
    requires IsSyllable(c)
    requires StartsSyllable(CharUnits(c) + rest)
    requires SyllableWidth(CharUnits(c) + rest) == |CharUnits(c)|
    ensures SyllableAt(CharUnits(c) + rest) == Some(c)
  {
    var us := CharUnits(c);
    var units := us + rest;
    CharUnitsOfSyllable(c);
    ComposeOfIndices(c);
    assert units[0] == us[0] && units[1] == us[1];
    if |us| == 3 {
      assert units[2] == us[2];
    }
  }

  /** The other direction: a syllable the decoder composes from units in its
      tables encodes back to exactly those units. */
  lemma SyllableReencodes(units: seq<Unit>)
    requires StartsSyllable(units)
    requires units[0].lead in LeadTable && units[1].vowel in VowelTable
    requires SyllableWidth(units) == 3 ==> units[2].trail in TrailTable
    ensures SyllableAt(units).Some?
    ensures CharUnits(SyllableAt(units).value) == units[..SyllableWidth(units)]
  {
    var c := SyllableAt(units).value;
    var n := SyllableWidth(units);
    var (l, v, t) := SyllableIndices(c);
    UnitsOfCompose(l, v, t);
    ComposeOfIndices(c);
    SameUnits(CharUnits(c), units, n);
  }

  /** The units of the syllable with indices (l, v, t) are the table entries
      at those indices, with a JONG exactly when t is not zero. */
  lemma UnitsOfCompose(l: nat, v: nat, t: nat)
    requires l < LeadCount && v < VowelCount && t < TrailCount
    ensures var us := CharUnits(Compose(l, v, t));
      && |us| == (if t == 0 then 2 else 3)
      && us[0] == CHO(LeadTable[l]) && us[1] == JUNG(VowelTable[v])
      && (t != 0 ==> us[2] == JONG(TrailTable[t - 1]))
  {
    CharUnitsOfSyllable(Compose(l, v, t));
    LookupsInvert(l, v, t);
  }

  lemma SameUnits(us: seq<Unit>, units: seq<Unit>, n: nat)
    requires 2 <= n <= 3 && n <= |units| && |us| == n
    requires us[0] == units[0] && us[1] == units[1] && (n == 3 ==> us[2] == units[2])
    ensures us == units[..n]
  {
  }

  /** Round trip: the group token of a word decodes to exactly the word's
      syllables, in order. */
  lemma {:induction false} GroupRoundTrip(w: string)
    ensures Combine(Group(w)) == Some(Syllables(w))
    decreases |w|
  {
    if |w| > 0 {
      GroupRoundTrip(w[1..]);
      GroupShape(w[1..]);
      if IsSyllable(w[0]) {
        SyllableUnitsDecode(w[0], Group(w[1..]));
        assert Group(w) == CharUnits(w[0]) + Group(w[1..]);
        assert Syllables(w) == [w[0]] + Syllables(w[1..]);
      } else {
        assert Group(w) == Group(w[1..]);
        assert Syllables(w) == Syllables(w[1..]);
      }
    }
  }

  /** A single-unit token decodes to the characters its unit carries. */
  lemma PieceDecodes(t: Token)
    requires IsPiece(t)
    ensures KeywordOf(t) == Some(RawValue(t[0]))
  {
    assert t[1..] == [];
    assert !StartsSyllable(t);
    RawStep(t);
    assert RawValue(t[0]) + "" == RawValue(t[0]);
  }

  lemma {:induction false} DecodedTextAppend(a: seq<Token>, b: seq<Token>)
    ensures DecodedText(a + b) == Join(DecodedText(a), DecodedText(b))
  {
    if |a| == 0 {
      assert a + b == b;
      if DecodedText(b).Some? {
        assert "" + DecodedText(b).value == DecodedText(b).value;
      }
    } else {
      assert (a + b)[1..] == a[1..] + b;
      DecodedTextAppend(a[1..], b);
      if DecodedText(a).Some? && DecodedText(b).Some? {
        var w := KeywordOf(a[0]).value;
        assert w + (DecodedText(a[1..]).value + DecodedText(b).value)
            == (w + DecodedText(a[1..]).value) + DecodedText(b).value;
      }
    }
  }

  /** The pieces of a word decode to the word's letters and jamo, in order:
      digits and syllables are the only characters they leave out. */
  lemma {:induction false} PiecesRecoverLettersAndJamo(w: string)
    ensures DecodedText(Pieces(w)) == Some(LettersAndJamo(w))
    decreases |w|
  {
    if |w| > 0 {
      var n := if IsAsciiLetter(w[0]) then LetterRunLength(w) else 1;
      var rest := w[n..];
      PiecesRecoverLettersAndJamo(rest);
      assert w == w[..n] + rest;
      LettersAndJamoAppend(w[..n], rest);
      var ps := Pieces(w);
      if IsLetterOrJamo(w[0]) {
        assert ps == [ps[0]] + Pieces(rest);
        assert ps[1..] == Pieces(rest);
        PieceDecodes(ps[0]);
        if IsAsciiLetter(w[0]) {
          LettersAndJamoOfRun(w[..n]);
        } else {
          assert LettersAndJamo(w[..n]) == [w[0]] + LettersAndJamo([]);
        }
      } else {
        assert ps == Pieces(rest);
        assert LettersAndJamo(w[..n]) == [] + LettersAndJamo([]);
        assert LettersAndJamo(w) == LettersAndJamo(rest);
      }
    }
  }

  lemma {:induction false} LettersAndJamoAppend(a: string, b: string)
    ensures LettersAndJamo(a + b) == LettersAndJamo(a) + LettersAndJamo(b)
  {
    if |a| == 0 {
      assert a + b == b;
    } else {
      var head := if IsLetterOrJamo(a[0]) then [a[0]] else [];
      assert (a + b)[0] == a[0] && (a + b)[1..] == a[1..] + b;
      LettersAndJamoAppend(a[1..], b);
      calc {
        LettersAndJamo(a + b);
        head + LettersAndJamo(a[1..] + b);
        head + (LettersAndJamo(a[1..]) + LettersAndJamo(b));
        (head + LettersAndJamo(a[1..])) + LettersAndJamo(b);
      }
    }
  }

  lemma {:induction false} LettersAndJamoOfRun(s: string)
    requires forall i :: 0 <= i < |s| ==> IsAsciiLetter(s[i])
    ensures LettersAndJamo(s) == s
  {
    if |s| > 0 {
      LettersAndJamoOfRun(s[1..]);
    }
  }

  /** Round trip for one word: its tokens decode to its letters and jamo, in
      order, followed by its syllables, in order. */
  lemma WordRoundTrip(w: string)
    ensures DecodedText(EncodeWord(w)) == Some(LettersAndJamo(w) + Syllables(w))
  {
    PiecesRecoverLettersAndJamo(w);
    GroupRoundTrip(w);
    var g: seq<Token> := if |Group(w)| == 0 then [] else [Group(w)];
    DecodedTextAppend(Pieces(w), g);
    if |Group(w)| == 0 {
      assert Syllables(w) == "";
      assert LettersAndJamo(w) + "" == LettersAndJamo(w);
    } else {
      assert g[1..] == [];
      assert Syllables(w) + "" == Syllables(w);
    }
  }

  /** What a caption's words decode to: each word's letters and jamo, then
      its syllables, word after word. */
  function WordsDecoded(ws: seq<string>): string {
    if |ws| == 0 then "" else LettersAndJamo(ws[0]) + Syllables(ws[0]) + WordsDecoded(ws[1..])
  }

  lemma {:induction false} WordsRoundTrip(ws: seq<string>)
    ensures DecodedText(EncodeWords(ws)) == Some(WordsDecoded(ws))
  {
    if |ws| > 0 {
      WordRoundTrip(ws[0]);
      WordsRoundTrip(ws[1..]);
      DecodedTextAppend(EncodeWord(ws[0]), EncodeWords(ws[1..]));
    }
  }

  /** Round trip for a caption: decoding the tokens of `compress_decompose`
      never fails, and gives every word of the cleaned caption with its
      letters and jamo moved ahead of its syllables. */
  lemma CaptionRoundTrip(text: string)
    ensures DecodedText(Encode(text)) == Some(WordsDecoded(Split(Clean(text))))
  {
    WordsRoundTrip(Split(Clean(text)));
  }

  /** Decoding a token list whole succeeds exactly when every token decodes,
      and then gives the decoded words put end to end. */
  lemma {:induction false} DecodedTextIsWords(ts: seq<Token>)
    ensures DecodedText(ts).Some? <==> TokenWords(ts).Some?
    ensures DecodedText(ts).Some? ==> DecodedText(ts).value == Concat(TokenWords(ts).value)
  {
    if |ts| > 0 {
      DecodedTextIsWords(ts[1..]);
      if TokenWords(ts).Some? {
        assert TokenWords(ts).value[1..] == TokenWords(ts[1..]).value;
      }
    }
  }

  /** The token lists of a corpus of captions, one per caption. */
  function EncodeCorpus(texts: seq<string>): (corpus: seq<seq<Token>>)
    ensures |corpus| == |texts|
    ensures forall i :: 0 <= i < |texts| ==> corpus[i] == Encode(texts[i])
  {
    if |texts| == 0 then [] else [Encode(texts[0])] + EncodeCorpus(texts[1..])
  }

  lemma {:induction false} CorpusDecodes(texts: seq<string>)
    ensures DecodedText(Concat(EncodeCorpus(texts))).Some?
  {
    if |texts| > 0 {
      CaptionRoundTrip(texts[0]);
      CorpusDecodes(texts[1..]);
      assert (EncodeCorpus(texts))[1..] == EncodeCorpus(texts[1..]);
      DecodedTextAppend(Encode(texts[0]), Concat(EncodeCorpus(texts[1..])));
    }
  }

  /** `extract_keywords` never fails on what `compress_decompose` produced:
      every token of every encoded caption decodes, and each one is counted. */
  lemma EncodedCorpusExtracts(texts: seq<string>)
    ensures ExtractKeywords(EncodeCorpus(texts)).Some?
    ensures SumCounts(ExtractKeywords(EncodeCorpus(texts)).value) == |Concat(EncodeCorpus(texts))|
  {
    CorpusDecodes(texts);
    DecodedTextIsWords(Concat(EncodeCorpus(texts)));
  }

  /** A word made only of syllables is one group token and comes back whole. */
  lemma {:induction false} SyllableWord(w: string)
    requires forall i :: 0 <= i < |w| ==> IsSyllable(w[i])
    ensures Syllables(w) == w && LettersAndJamo(w) == ""
  {
    if |w| > 0 {
      SyllableWord(w[1..]);
      assert !IsLetterOrJamo(w[0]);
    }
  }

  /** A caption of syllables and whitespace decodes to exactly its syllables,
      in order: nothing but the whitespace is lost. */
  lemma {:induction false} SyllableCaptionRoundTrip(text: string)
    requires forall i :: 0 <= i < |text| ==> IsSyllable(text[i]) || IsSpace(text[i])
    ensures DecodedText(Encode(text)) == Some(RemoveSpaces(text))
  {
    CleanKeepsKept(text);
    CaptionRoundTrip(text);
    SyllableWordsDecoded(text);
  }

  lemma {:induction false} SyllableWordsDecoded(s: string)
    requires forall i :: 0 <= i < |s| ==> IsSyllable(s[i]) || IsSpace(s[i])
    ensures WordsDecoded(Split(s)) == RemoveSpaces(s)
    decreases |s|
  {
    if |s| > 0 {
      if IsSpace(s[0]) {
        SyllableWordsDecoded(s[1..]);
      } else {
        var k := WordLength(s);
        var word := s[..k];
        SyllableWordsDecoded(s[k..]);
        assert s == word + s[k..];
        RemoveSpacesAppend(word, s[k..]);
        RemoveSpacesOfWord(word);
        SyllableWord(word);
        var ws := Split(s);
        assert ws[0] == word && ws[1..] == Split(s[k..]);
      }
    }
  }
}

=== FILE: seqs.dfy ===
/** Flattening a sequence of sequences, used for token lists and word texts. */
module Seqs {

  /** The pieces put end to end: an element is in the result exactly when it
      is in one of the pieces. */
  function Concat<T>(ss: seq<seq<T>>): (r: seq<T>)
    ensures forall i, j :: 0 <= i < |ss| && 0 <= j < |ss[i]| ==> ss[i][j] in r
    ensures forall k :: 0 <= k < |r| ==> exists i :: 0 <= i < |ss| && r[k] in ss[i]
  {
    if |ss| == 0 then [] else ss[0] + Concat(ss[1..])
  }

  lemma {:induction false} ConcatAppend<T>(a: seq<seq<T>>, b: seq<seq<T>>)
    ensures Concat(a + b) == Concat(a) + Concat(b)
  {
    if |a| > 0 {
      assert (a + b)[1..] == a[1..] + b;
      ConcatAppend(a[1..], b);
    } else {
      assert a + b == b;
    }
  }
}

=== FILE: text.dfy ===
/** Python's whitespace class and its argument-less `str.split()`, which the
    caption encoder uses to cut a cleaned caption into words. */
module Text {
  import opened Seqs

  /** Python's whitespace characters (`str.isspace`, and `\s` in a `str` regular
      expression): the ASCII controls U+0009..U+000D and U+001C..U+001F, the
      space, U+0085, U+00A0, U+1680, U+2000..U+200A, U+2028, U+2029, U+202F,
      U+205F and U+3000. */
  predicate IsSpace(c: char) {
    var n := c as int;
    || 0x09 <= n <= 0x0D
    || 0x1C <= n <= 0x20
    || n == 0x85 || n == 0xA0 || n == 0x1680
    || 0x2000 <= n <= 0x200A
    || n == 0x2028 || n == 0x2029 || n == 0x202F || n == 0x205F || n == 0x3000
  }

  /** A word as `str.split()` yields it: non-empty, with no whitespace. */
  predicate IsWord(w: string) {
    |w| > 0 && forall i :: 0 <= i < |w| ==> !IsSpace(w[i])
  }

  /** The characters of `s` that are not whitespace, in order. */
  function RemoveSpaces(s: string): string {
    if |s| == 0 then [] else (if IsSpace(s[0]) then [] else [s[0]]) + RemoveSpaces(s[1..])
  }

  /** Length of the leading run of non-whitespace characters. */
  function WordLength(s: string): (k: nat)
    ensures k <= |s|
    ensures forall i :: 0 <= i < k ==> !IsSpace(s[i])
    ensures k == |s| || IsSpace(s[k])
  {
    if |s| == 0 || IsSpace(s[0]) then 0 else 1 + WordLength(s[1..])
  }

  /** `s.split()`: the maximal runs of non-whitespace characters, in order. */
  function Split(s: string): (words: seq<string>)
    ensures forall w :: w in words ==> IsWord(w)
    decreases |s|
  {
    if |s| == 0 then []
    else if IsSpace(s[0]) then Split(s[1..])
    else
      var k := WordLength(s);
      [s[..k]] + Split(s[k..])
  }

  lemma {:induction false} RemoveSpacesAppend(a: string, b: string)
    ensures RemoveSpaces(a + b) == RemoveSpaces(a) + RemoveSpaces(b)
  {
    if |a| > 0 {
      assert (a + b)[1..] == a[1..] + b;
      RemoveSpacesAppend(a[1..], b);
    } else {
      assert a + b == b;
    }
  }

  lemma {:induction false} RemoveSpacesOfWord(w: string)
    requires forall i :: 0 <= i < |w| ==> !IsSpace(w[i])
    ensures RemoveSpaces(w) == w
  {
    if |w| > 0 {
      RemoveSpacesOfWord(w[1..]);
    }
  }

  /** Splitting loses only the whitespace: the words, put back together, are
      the non-whitespace characters of the text in their original order. */
  lemma {:induction false} SplitKeepsNonSpace(s: string)
    ensures Concat(Split(s)) == RemoveSpaces(s)
    decreases |s|
  {
    if |s| > 0 {
      if IsSpace(s[0]) {
        SplitKeepsNonSpace(s[1..]);
      } else {
        var k := WordLength(s);
        SplitKeepsNonSpace(s[k..]);
        assert s == s[..k] + s[k..];
        RemoveSpacesAppend(s[..k], s[k..]);
        RemoveSpacesOfWord(s[..k]);
        assert ([s[..k]] + Split(s[k..]))[1..] == Split(s[k..]);
      }
    }
  }

  /** A text that is a single word splits into exactly that word. */
  lemma SplitOfWord(w: string)
    requires IsWord(w)
    ensures Split(w) == [w]
  {
    assert WordLength(w) == |w|;
    assert w[..|w|] == w && w[|w|..] == [];
  }

  lemma {:induction false} WordLengthAppend(a: string, b: string)
    requires |a| > 0 && !IsSpace(a[0])
    ensures WordLength(a) < |a| ==> WordLength(a + b) == WordLength(a)
    ensures WordLength(a) == |a| && |b| > 0 && IsSpace(b[0]) ==> WordLength(a + b) == |a|
  {
    if |a| > 1 && !IsSpace(a[1]) {
      assert (a + b)[1..] == a[1..] + b;
      WordLengthAppend(a[1..], b);
    }
  }

  /** One whitespace character separates: the words of `a ws b` are the words of
      `a` followed by the words of `b`. */
  lemma {:induction false} SplitAtSpace(a: string, c: char, b: string)
    requires IsSpace(c)
    ensures Split(a + [c] + b) == Split(a) + Split(b)
    decreases |a|
  {
    var s := a + [c] + b;
    if |a| == 0 {
      assert s == [c] + b;
      assert s[1..] == b;
    } else if IsSpace(a[0]) {
      assert s[1..] == a[1..] + [c] + b;
      SplitAtSpace(a[1..], c, b);
    } else {
      WordLengthAppend(a, [c] + b);
      assert s == a + ([c] + b);
      var k := WordLength(a);
      if k < |a| {
        assert s[..k] == a[..k];
        assert s[k..] == a[k..] + [c] + b;
        SplitAtSpace(a[k..], c, b);
      } else {
        assert s[..k] == a;
        assert s[k..] == [c] + b;
        assert ([c] + b)[1..] == b;
        assert Split([c] + b) == Split(b);
        SplitOfWord(a);
      }
    }
  }

  lemma {:induction false} RemoveSpacesChars(s: string)
    ensures forall c :: c in RemoveSpaces(s) <==> c in s && !IsSpace(c)
  {
    if |s| > 0 {
      RemoveSpacesChars(s[1..]);
      assert s == [s[0]] + s[1..];
    }
  }
}

=== FILE: units.dfy ===
/** The tagged grapheme units and tokens passed from the caption encoder to the
    keyword decoder. In the repository a unit is a one-key dictionary such as
    {"CHO": "ㄱ"}; the key is the tag. */
module Units {

  datatype Unit =
    | ENG(text: string)   // a maximal run of ASCII letters
    | CHO(lead: char)     // an initial consonant, or a standalone consonant jamo
    | JUNG(vowel: char)   // a medial vowel, or a standalone vowel jamo
    | JONG(trail: char)   // a final consonant; never the "none" trail

  /** A token: the units of one English run, one standalone jamo, or all
      decomposed syllables of one word. */
  type Token = seq<Unit>

  /** The characters a unit carries: what the decoder appends when the unit
      does not take part in a syllable. */
  function RawValue(u: Unit): string {
    match u
    case ENG(t) => t
    case CHO(c) => [c]
    case JUNG(c) => [c]
    case JONG(c) => [c]
  }
}

=== FILE: wrappers.dfy ===
/** The Some/None datatype used for the one failure the codec has:
    a jamo value that is missing from its lookup table. */
module Wrappers {

  datatype Option<+T> = None | Some(value: T) {

    /** A missing value stops a `:-` chain. */
    predicate IsFailure() {
      None?
    }

    /** The missing value, passed on at the caller's result type. */
    function PropagateFailure<U>(): Option<U>
      requires None?
    {
      None
    }

    /** The present value, which `:-` binds. */
    function Extract(): T
      requires Some?
    {
      value
    }
  }
}
